=== FILE: README.md ===
# A verified model of a small git-like object store

The modelled program is `main.cpp`, a single-file version-control tool. It
keeps content-addressed objects under `.mygit/objects/<2 hex>/<38 hex>`. Each
object is a zlib-compressed frame `"<kind> <size>\0<payload>"`. A tree object's
payload is a concatenation of `"<mode> <name>\0<40-char hash>"` entries. The
staging index lives in `.mygit/index`, one `mode sha path` line per entry.

The model covers the pure logic around that I/O:

- the frame header and `catFile`'s reading of it;
- the rendering of a SHA-1 digest as 40 lowercase hex characters, and the
  shard path built from it;
- the tree payload codec: `parseTreeData`, `parseTreeDataMap`, `displayTree`,
  `lstree` and `getTreeData`;
- `writeTree`, as a recursive fold over a directory-tree datatype;
- the staging index: its ledger, `detecteDeletions`, `processFile`,
  `processDirectory` and `add`;
- `updateTree`, and the tree-building half of `commit`.

Abstractions:

- **Digest.** The SHA-1 primitive is a parameter `digest: string -> Sha1`. It
  is any function returning 20 bytes.
- **Bytes.** A Dafny `string` stands for a file's bytes, one `char` per
  byte. So a frame's `Decimal(|payload|)` is the byte count the program takes
  from `tellg()` or `size()`.
- **Compression.** zlib is treated as the identity. The object database is a
  map from object location to the decompressed frame stored there.
- **Filesystem.** A directory is a sequence of `Node`s in iteration order. A
  path's existence is membership in a map or set passed in as a parameter.
- **Map iteration.** The iteration order of `unordered_map` is left open.
  `SaveIndex` and `CommitPayload` pick keys one at a time, with `:|`. They
  return the order they used as an ordinary out-parameter, and their contracts
  hold for every such order.
- **Stream extraction.** `>>` into a `string` is `Text.ReadToken`: skip
  whitespace, then take the longest run of non-whitespace characters. `>>`
  into a `size_t` is `Text.ReadSize`, which reads like `strtoull`. It accepts
  an optional sign, negates modulo 2^64 after a `-`, and saturates at 2^64-1.
  A word with no digit after its optional sign reads as 0.
- **Inflation buffers.** `catFile` inflates into 64 KiB buffers until one
  holds the NUL. `-p` prints what those buffers hold after the NUL
  (`Objects.Printed`). This is the whole payload when the frame fits in one
  buffer. Otherwise it is a prefix that ends at a buffer boundary.
- **The reused stream.** `parseTreeData` and `parseTreeDataMap` reuse one
  `stringstream` across entries. Whatever an entry leaves unread is glued in
  front of the next entry's text. The model carries that leftover explicitly
  (`carry`).

Modules, one file each: `Wrappers`, `Text`, `Hex`, `Objects`, `TreeCodec`,
`WorkTree`, `Index` and `Snapshot`.

Where the code and its documented behaviour disagree, the model follows the
code:

- a hash field shorter than 40 characters at the end of a payload is accepted
  as it stands;
- a non-tree object read by `getTreeData` gives an empty map, not an error;
- `processDirectory` records a staged directory with mode word `blob`, not
  `tree`;
- `updateTree` uses the staged path, not its final component, as the entry
  name;
- a tree's file entries name the digest of the bare content (`writeBlob`). The
  blob `hashObject` stores is named by the digest of the framed content. So the
  two names differ.

## Model

| member | source | states |
|---|---|---|
| Hex.ToHex | main.cpp:83-86 | Rendering a digest gives two lowercase hex characters per byte, and byte `i` can be read back from characters `2i` and `2i+1`. |
| Hex.ToHexInjective | main.cpp:284-289 | Distinct digests render to distinct names, so a 40-character name identifies its digest. |
| Hex.ObjectPath | main.cpp:107-110 | An object name has a location exactly when it is at least two characters long; shorter names are where `substr(2)` throws. |
| Hex.ShardSplit | main.cpp:333-336 | A 40-character name splits into a 2-character shard and a 38-character file name, which together give the name back. |
| Hex.ObjectPathInjective | main.cpp:174-176 | Distinct names give distinct object locations (shard, file name). For hex names these are distinct files. |
| Objects.ParseFrame | main.cpp:219-226 | The header parse succeeds exactly when the frame holds a NUL; the payload is everything after the first NUL, and the kind word holds no whitespace. |
| Objects.FrameRoundTrip | main.cpp:66 | Parsing `kind + " " + decimal(n) + "\0" + payload` gives back the kind, the length and the payload, for any single-word kind. |
| Objects.Inflated | main.cpp:199-219 | The header loop holds whole buffers up to and including the first that reaches the NUL, cut at the frame's end. A frame of at most 64 KiB is held whole; otherwise, with the NUL in the first buffer, exactly the first 64 KiB are held. |
| Objects.Shown | main.cpp:235-264 | What `-p` prints of a framed payload is a prefix of it. It is the whole payload when the frame fits in one buffer, and otherwise, when the header fits in the first buffer, the part of the payload inside the first 64 KiB. |
| Objects.ModeOfFlag | main.cpp:227-271 | Exactly `-t`, `-s` and `-p` select an output; any other flag selects nothing. |
| Objects.CatFile | main.cpp:172-276 | `catFile` succeeds exactly when the name is longer than two characters, an object is stored at its (shard, rest) location, its frame holds a NUL and the flag is one of the three. A name shorter than two characters is reported as such. A two-character name always fails, and it stalls as an unterminated header exactly when its shard directory exists. |
| Objects.CatFileOfFrame | main.cpp:221-237 | On a frame stored under a name longer than two characters, `-t` prints the kind and `-s` the payload length (saturated at 2^64-1). `-p` prints the payload as far as the inflated buffers hold it, which is all of it when the frame fits in 64 KiB. Each is followed by a newline. |
| Objects.ContentName | main.cpp:294-327 | `writeBlob` names content by the digest of the bare content, as 40 lowercase hex characters. |
| Objects.HashObject | main.cpp:51-170 | `hashObject` names a file by the digest of its framed blob, 40 lowercase hex characters. It stores that frame under the name exactly when asked to, and otherwise leaves the store as it was. |
| Objects.HashObjectStores | main.cpp:51-170 | With `create_blob`, `hashObject` adds exactly its name's location to the store, whose frame parses back to `blob`, the content length and the content. Without it the store's keys do not change. Every other object is untouched either way. |
| Objects.HashObjectReadsBack | main.cpp:66-166 | A stored blob is content-addressed: its name is the digest of exactly the frame stored under it. `catFile` prints back `blob`, the content length, and the content as far as the inflated buffers hold it (all of it for a frame of at most 64 KiB). |
| Objects.WriteObjectStores | main.cpp:329-379 | `writeObject` adds exactly the location of the bare payload's digest name to the store. The frame stored there parses back to `tree`, the payload length and the payload. Every other object is untouched. |
| Objects.WriteObjectReadsBack | main.cpp:329-339 | After `writeObject`, `catFile` on the payload's digest name prints `tree`, the payload length, and the payload as far as the inflated buffers hold it (all of it for a frame of at most 64 KiB). |
| TreeCodec.ReadHeader | main.cpp:502-516 | The header is accepted exactly when the data holds a NUL and the first word before it is `tree`; parsing then starts right after that first NUL. A header with a NUL and any other first word is rejected as not a tree. |
| TreeCodec.ReadEntry | main.cpp:517-530 | One loop turn fails exactly when no NUL remains. Otherwise it moves forward, derives the kind from the mode, and takes a hash of at most 40 characters. |
| TreeCodec.ParseTree | main.cpp:500-533 | Every parsed entry's kind is `blob` when its mode is `100644` and `tree` otherwise. |
| TreeCodec.ParseTreeMap | main.cpp:465-498 | Every key of the parsed map names its own entry. |
| TreeCodec.NonTreeRejected | main.cpp:475-479 | A frame of any single-word kind other than `tree` is rejected as not a tree, by both the list parser and the map parser (lines 510-514 for the list parser). |
| TreeCodec.TreeRoundTrip | main.cpp:391-412 | Parsing a `tree`-framed concatenation of well-formed entries gives back exactly those entries, in order. |
| TreeCodec.ReadHeaderOf | main.cpp:338 | The header `writeObject` writes is accepted, and it leaves nothing unread in the stream. |
| TreeCodec.MapViewOfList | main.cpp:482-496 | `parseTreeDataMap` succeeds exactly when `parseTreeData` does. Its keys are exactly the list's names, and each name maps to the last list entry with that name. |
| TreeCodec.MapEntriesFromList | main.cpp:465-533 | The map parser's loop is the list parser's loop poured into a map. |
| TreeCodec.ListToMapLastWins | main.cpp:495 | Filling a map from a list keeps the starting keys and adds the list's names. Each name maps to its last entry, and starting keys not in the list keep their values. |
| TreeCodec.DisplayOneLinePerEntry | main.cpp:535-554 | `displayTree` prints one line per entry, in list order, each that entry's display line. |
| TreeCodec.DisplayLineSingle | main.cpp:537-551 | An entry whose fields hold no newline displays as a single line, in either format. |
| TreeCodec.LsTree | main.cpp:582-614 | `lstree` succeeds exactly when the object exists, is non-empty, parses as a tree and has at least one entry. |
| TreeCodec.LsTreeOfStoredTree | main.cpp:582-614 | Listing a non-empty tree stored by `writeObject` displays exactly its entries. |
| TreeCodec.GetTreeData | main.cpp:556-580 | The result is keyed by entry name. A missing object, an empty one, and one that is not a tree all give the empty map. There is no map at all exactly when the name has no location or the non-empty object runs out of NULs where the parser needs one. |
| TreeCodec.BlobIsNotATree | main.cpp:556-614 | A blob stored by `hashObject` reads through `getTreeData` as the empty map, and `lstree` rejects it as not a tree. |
| TreeCodec.GetTreeDataOfStoredTree | main.cpp:556-580 | Reading back a tree stored by `writeObject` gives its entries keyed by name, the last entry of each name winning. |
| WorkTree.CollectEntries | main.cpp:385-412 | The entry texts the directory loop pushes concatenate to the serialized listing. The loop only adds objects to the store. |
| WorkTree.CollectFirst | main.cpp:387-405 | A regular file contributes a `100644` entry with its bare-content digest. A directory other than `.mygit`/`.git` contributes a `040000` entry naming its own tree. Anything else contributes nothing. |
| WorkTree.FileEntryNamesContent | main.cpp:387-394 | A regular file's entry carries the bare-content name `writeBlob` gives, while the blob `hashObject` stores for it lives under the digest of its `blob` frame. The entry reaches that blob exactly when the digest gives both texts the same value. |
| WorkTree.WriteTree | main.cpp:381-416 | The returned name is the digest of the listing's payload. The `tree`-framed listing is stored under that name, and no earlier object is dropped. |
| WorkTree.ListingWellFormed | main.cpp:391-403 | Every entry of a listing whose names are single words can be carried by the payload format. |
| WorkTree.WriteTreeReadsBack | main.cpp:381-416 | The tree stored by `writeTree` parses back to the directory's listing, in iteration order. |
| Text.LinesOfJoined | main.cpp:659 | Reading lines written one per `'\n'` with `getline` gives back exactly those lines. |
| Text.ReadSize | main.cpp:225-226 | `>> size` finds no number exactly when only whitespace is left; any number it reads fits in 64 bits. |
| Text.ReadSizeOfDecimal | main.cpp:226 | `>> size` reads back the number `to_string` wrote, saturated at 2^64-1. |
| Text.ReadSizeOfNonDigit | main.cpp:225-226 | A size word with no digit after its optional sign, such as `x` or `-x`, reads as 0. |
| Text.ReadSizeOfSigned | main.cpp:225-226 | A size word with a sign reads like `strtoull`. `+n` gives `n`. `-n` gives 2^64 minus `n`, or 0 for `n` = 0. Either sign gives 2^64-1 once `n` reaches 2^64. |
| Text.Find | main.cpp:221 | `find` returns the first position at or after the start that holds the character, or nothing when there is none. |
| Index.ReadLedgerLine | main.cpp:661-663 | The three words read from a ledger line hold no whitespace. |
| Index.LedgerRoundTrip | main.cpp:645-652 | Writing the index one `mode sha path` line per entry, in any order, and reading it back gives the same index, when every word is a single word. |
| Index.ReadLedgerLineOf | main.cpp:663-664 | A ledger line of single words reads back as the path and metadata it was written from. |
| Index.FillLastWins | main.cpp:659-665 | When one path appears on several ledger lines, the last of them decides its entry. |
| Index.SaveIndex | main.cpp:645-652 | The ledger holds one line per entry in some iteration order of the index, and it reads back as the index. |
| Index.DetectDeletions | main.cpp:628-643 | Exactly the entries whose path still exists remain, with unchanged values. Pruning again changes nothing. |
| Index.StageOne | main.cpp:616-626 | A skipped path leaves the index as it was. A processed path gets its staged record with mode `blob`, and only present paths remain. No other entry changes, no present entry is dropped, and the store only grows. |
| Index.StageAll | main.cpp:668-693 | Every staged argument ends up with its staged record. Every other entry keeps its loaded value, and present entries are never dropped. After any processed argument only present paths remain; with none, the index is unchanged. |
| Index.Add | main.cpp:654-702 | Relative to the ledger read at the start: every staged argument gets its record, every other entry keeps its loaded value, and loaded entries that still exist stay. The ledger written at the end reads back as the final index. |
| Snapshot.LastStaged | main.cpp:724-742 | The ledger line found for a name is a line of the ledger, names that path, and has type `blob` or `tree`. None is found exactly when no line stages the name. |
| Snapshot.LastStagedIsLast | main.cpp:724-742 | The line found for a name sits at some index of the ledger, and no later line stages that name. |
| Snapshot.OverlayLastStaged | main.cpp:724-742 | The ledger loop keeps every earlier key and adds exactly the staged names. A staged name takes the text of its last `blob`/`tree` line, and every other key keeps its text. |
| Snapshot.UpdateTree | main.cpp:704-746 | Result present exactly when the ledger is. Keys: exactly the previous names that still exist plus the staged names. Values: a staged name's text comes from its last staged line (`100644` for `blob`, `040000` for `tree`); any other key's value is the previous entry re-serialized. |
| Snapshot.StagedTextOf | main.cpp:732-741 | A staged line's text is the serialization of the entry it stands for. |
| Snapshot.CommitPayload | main.cpp:788-792 | The payload is the concatenation of the merged texts, in an iteration order that lists every name exactly once. |
| Snapshot.PayloadReadsBack | main.cpp:788-795 | Whatever order the merged texts are concatenated in, the stored payload parses by name back to the entries they stand for. |
| Snapshot.CommitTree | main.cpp:774-796 | First commit: the working tree is written, and the result is its tree name. With a parent: success exactly when the parent reads as a tree and the ledger exists; the concatenation is stored under its payload digest; and it reads back as the merge of the parent's entries with the staged lines. |
| Snapshot.CommitReadsBack | main.cpp:785-795 | A merged tree stored by `commit` reads back, by name, as the merged entries. |

## Left out

- The SHA-1 computation itself is not modelled. The digest is a parameter,
  and chunked `SHA1_Update` calls are taken to equal one digest of the whole
  text.
- zlib compression and decompression, including the unused `compressData`,
  are not modelled. A stored object is its decompressed frame.
- Objects.CatFile: the model assumes the whole compressed object file
  arrives in the first 64 KiB read. Then the source prints only the buffers
  inflated before its header loop stops, and the model prints the same. A
  larger compressed file is read again into the same input buffer before
  earlier input is consumed, and that is not modelled.
- File and stream I/O, `create_directories` and the console output of
  diagnostics are left out. So is `lstree`'s debug print of the raw data.
- The `main` argument dispatch is left out.
- `commit`'s HEAD and branch-ref handling is left out. The parent name is
  passed in as an `Option`.
- `commit`'s commit-data string is left out: the fixed user, the timestamp and
  the never-stored `commitData`.
- Objects.CatFile: `-s` on a header with nothing left after the kind word
  prints `0`. There the source prints an uninitialised `size_t`. Every other
  size word reads as `strtoull` reads it (see `Text.ReadSize`).
- TreeCodec.ParseTree: when no NUL remains, the source's `find` returns
  `npos` and `npos + 1` wraps to 0. The model reports `MissingNul` instead of
  following the wrapped position. From there the source reads the next hash
  at position 0 and moves on to 40. It loops forever on data longer than 40
  characters and otherwise ends with one garbage entry. `GetTreeData` gives
  `None` in that case.
- Objects.CatFile: the source loops forever when an inflated object holds no
  NUL. The model reports `Unterminated` instead. This includes a
  two-character name whose shard directory exists. The source then opens that
  directory, reads no input, and its header loop never ends.
- TreeCodec.GetTreeData, TreeCodec.LsTree: for a two-character name the source
  reads the shard directory as empty data. It returns the empty map or the
  status 1, as for a missing object. The model looks up the location with an
  empty file name. No operation stores an object there, so the model gives
  the same results.
- Snapshot.UpdateTree: the source's bare `return;` in a function that returns
  a map, taken when the ledger is missing, is ill-formed C++. Compilers accept
  it only with `-fpermissive`, and then it is undefined behaviour. The model returns
  `None`, and `CommitTree` reports `NoLedger`.
- Snapshot.UpdateTree requires the previous map to be keyed by entry name.
  `getTreeData` is its only source and always gives such a map.
- Hex.ObjectPath: `substr(2)` throwing on a name shorter than two characters
  is modelled as a failure value (`ShortName`, or `None`).
- Hex.ObjectPathInjective: a location is the pair (shard, file name), not the
  joined path. Names that are not hex can reach the same file in the
  program, as `ab/x` and `abx` do, or `ab` and `ab.`. The model does not
  claim otherwise for them.
- Objects.CatFile, TreeCodec.GetTreeData, TreeCodec.LsTree: the model looks
  up the pair (shard, rest). The source opens the joined path
  `.mygit/objects/<shard>/<rest>`, and the filesystem resolves `/`, `.` and
  `..` in it. So a name such as `ab/`, `ab.`, `ab/<38 characters>` or
  `..index` can reach the shard directory, a stored object or another file.
  The model treats such names as any other location: not found unless an
  object is stored at that exact pair. Only the two-character name is
  modelled as the shard directory. Every name the program itself writes is
  hex, and the two agree there.
- Index.Add: the intermediate `saveIndex` after each argument is overwritten
  by the final write. Only the final ledger is returned.
- Index.Add: the store written by `processDirectory` is returned. The blobs
  `processFile` hashes are not stored, as in the source.
- WorkTree.WriteTree: `directory_iterator`'s order is the given order of the
  children. `is_regular_file` and `is_directory` follow symbolic links, so a
  link is represented by the `File` or `Dir` node of its target. Only special
  files and dangling links are `Other` nodes, and those are skipped.
- Snapshot.CommitTree: the read-back property is stated only for parents whose
  entries are well formed and for ledgers whose staged names are single words
  with 40-character hashes. Other inputs are parsed as the code would parse
  them, but no read-back is claimed.

=== FILE: hex.dfy ===
/** Rendering of a 20-byte SHA-1 digest as 40 lowercase hexadecimal characters
    (`setw(2) << setfill('0') << hex` and `sprintf("%02x")`), and the split of
    that name into a 2-character shard directory and a 38-character file name. */
module Hex {
  import opened Wrappers

  type byte = x: int | 0 <= x < 256

  /** What SHA-1 returns: exactly 20 bytes. */
  type Sha1 = d: seq<byte> | |d| == 20
    witness [0, 0, 0, 0, 0, 0, 0, 0, 0, 0, 0, 0, 0, 0, 0, 0, 0, 0, 0, 0]

  /** The digest primitive, left uninterpreted: any function from bytes to 20 bytes. */
  type Hasher = string -> Sha1

  predicate IsLowerHex(c: char) {
    '0' <= c <= '9' || 'a' <= c <= 'f'
  }

  function HexDigit(v: nat): (c: char)
    requires v < 16
  {
    if v < 10 then ('0' as int + v) as char else ('a' as int + v - 10) as char
  }

  /** The value of one lowercase hexadecimal digit. */
  function HexValue(c: char): nat
    requires IsLowerHex(c)
  {
    if c <= '9' then c as int - '0' as int else c as int - 'a' as int + 10
  }

  /** The byte a pair of hex digits denotes, high digit first. */
  function PairValue(hi: char, lo: char): nat
    requires IsLowerHex(hi) && IsLowerHex(lo)
  {
    HexValue(hi) * 16 + HexValue(lo)
  }

  /** One byte as two zero-padded lowercase hex digits, high nibble first. */
  function HexByte(b: byte): (s: string)
    ensures |s| == 2 && IsLowerHex(s[0]) && IsLowerHex(s[1])
    ensures PairValue(s[0], s[1]) == b
  {
    [HexDigit(b / 16), HexDigit(b % 16)]
  }

  /** A digest rendered byte by byte: two digits per byte, so byte `i` can be
      read back from characters `2i` and `2i+1`. */
  function ToHex(d: seq<byte>): (h: string)
    ensures |h| == 2 * |d|
    ensures forall i | 0 <= i < |h| :: IsLowerHex(h[i])
    ensures forall i | 0 <= i < |d| :: PairValue(h[2 * i], h[2 * i + 1]) == d[i]
  {
    if d == [] then []
    else
      var hb := HexByte(d[0]);
      var t := ToHex(d[1..]);
      var h := hb + t;
      forall i | 0 <= i < |h| ensures IsLowerHex(h[i]) {
        if i < 2 {
          assert h[i] == hb[i];
        } else {
          assert h[i] == t[i - 2];
        }
      }
      forall i | 0 <= i < |d|
        ensures PairValue(h[2 * i], h[2 * i + 1]) == d[i]
      {
        if i == 0 {
          assert h[0] == hb[0] && h[1] == hb[1];
        } else {
          var j := i - 1;
          assert d[i] == d[1..][j];
          assert h[2 * i] == t[2 * j] && h[2 * i + 1] == t[2 * j + 1];
        }
      }
      h
  }

  /** Distinct digests have distinct names. */
  lemma ToHexInjective(a: seq<byte>, b: seq<byte>)
    requires ToHex(a) == ToHex(b)
    ensures a == b
  {
    var h := ToHex(a);
    assert |a| == |b|;
    forall i | 0 <= i < |a|
      ensures a[i] == b[i]
    {
      var hi, lo := 2 * i, 2 * i + 1;
      assert a[i] == PairValue(h[hi], h[lo]);
      assert b[i] == PairValue(h[hi], h[lo]);
    }
  }

  /** Where an object lives under `.mygit/objects/`: its shard directory and
      its file name inside that directory. */
  datatype Location = Location(dir: string, file: string)

  /** `sha.substr(0, 2)`. */
  function Shard(sha: string): string {
    if |sha| < 2 then sha else sha[..2]
  }

  /** `sha.substr(2)`, which throws when the name is shorter than 2 characters. */
  function RestOf(sha: string): Option<string> {
    if |sha| < 2 then None else Some(sha[2..])
  }

  /** `.mygit/objects/<shard>/<rest>`, or `None` where `substr(2)` throws. */
  function ObjectPath(sha: string): (p: Option<Location>)
    ensures p.Some? <==> |sha| >= 2
  {
    match RestOf(sha)
    case None => None
    case Some(rest) => Some(Location(Shard(sha), rest))
  }

  /** A 40-character name splits into a 2-character shard and a 38-character
      file name that put together give the name back. */
  lemma ShardSplit(sha: string)
    requires |sha| == 40
    ensures |Shard(sha)| == 2 && RestOf(sha).Some? && |RestOf(sha).value| == 38
    ensures Shard(sha) + RestOf(sha).value == sha
  {
  }

  /** Two names that reach the same object file are the same name. */
  lemma ObjectPathInjective(a: string, b: string)
    requires ObjectPath(a).Some? && ObjectPath(a) == ObjectPath(b)
    ensures a == b
  {
    assert a == a[..2] + a[2..];
    assert b == b[..2] + b[2..];
  }
}

=== FILE: index.dfy ===
/** The staging index: a map from path to (name, mode word), kept on disk as a
    ledger of `mode sha path` lines, pruned of paths that no longer exist,
    and filled by `add`. */
module Index {
  import opened Wrappers
  import opened Text
  import opened Hex
  import opened Objects
  import opened WorkTree

  /** What the index records for a path: an object name and a mode word. */
  datatype Metadata = Metadata(sha: string, mode: string)

  type IndexMap = map<string, Metadata>

  /** The ledger line `saveIndex` writes for one entry. */
  function LedgerLine(path: string, m: Metadata): string {
    m.mode + " " + m.sha + " " + path
  }

  /** `ss >> filemode >> sha >> filepath` on one ledger line; a missing word
      reads as empty. */
  function ReadLedgerLine(line: string): (r: (string, Metadata))
    ensures NoSpace(r.0) && NoSpace(r.1.sha) && NoSpace(r.1.mode)
  {
    var (mode, rest) := ReadToken(line);
    var (sha, rest') := ReadToken(rest);
    var (path, _) := ReadToken(rest');
    (path, Metadata(sha, mode))
  }

  /** One ledger line as read back: the path and what is recorded for it. */
  type Record = (string, Metadata)

  function Records(lines: seq<string>): (recs: seq<Record>)
    ensures |recs| == |lines|
  {
    seq(|lines|, i requires 0 <= i < |lines| => ReadLedgerLine(lines[i]))
  }

  /** The paths the records name. */
  function RecordPaths(recs: seq<Record>): set<string> {
    set i | 0 <= i < |recs| :: recs[i].0
  }

  /** Filling the index from the records in order, a later record for a path
      replacing an earlier one. */
  function Fill(recs: seq<Record>): (idx: IndexMap)
    ensures idx.Keys == RecordPaths(recs)
  {
    if recs == [] then map[]
    else
      var n := |recs| - 1;
      var init := recs[..n];
      assert RecordPaths(recs) == RecordPaths(init) + {recs[n].0} by {
        assert forall i | 0 <= i < n :: init[i] == recs[i];
      }
      Fill(init)[recs[n].0 := recs[n].1]
  }

  /** The last record naming a path decides its entry. */
  lemma {:induction false} FillLastWins(recs: seq<Record>, i: nat)
    requires i < |recs|
    requires forall j | i < j < |recs| :: recs[j].0 != recs[i].0
    ensures Fill(recs)[recs[i].0] == recs[i].1
    decreases |recs|
  {
    var n := |recs| - 1;
    if i < n {
      var init := recs[..n];
      assert init[i] == recs[i];
      assert forall j | i < j < n :: init[j] == recs[j];
      FillLastWins(init, i);
    }
  }

  /** `add`'s reading of the ledger: empty when there is none, otherwise one
      record per line (`getline`), in order. */
  function LoadIndex(ledger: Option<string>): IndexMap {
    match ledger
    case None => map[]
    case Some(text) => Fill(Records(Lines(text)))
  }

  /** Every path, name and mode is a single word. */
  predicate TokensOk(idx: IndexMap) {
    forall p | p in idx :: IsToken(p) && IsToken(idx[p].sha) && IsToken(idx[p].mode)
  }

  /** `order` lists the map's keys, each exactly once: an iteration order. */
  predicate Enumerates<V>(order: seq<string>, m: map<string, V>) {
    && (forall i | 0 <= i < |order| :: order[i] in m)
    && (forall p | p in m :: p in order)
    && (forall i, j | 0 <= i < j < |order| :: order[i] != order[j])
  }

  function LedgerLines(idx: IndexMap, order: seq<string>): (lines: seq<string>)
    requires forall i | 0 <= i < |order| :: order[i] in idx
    ensures |lines| == |order|
  {
    seq(|order|, i requires 0 <= i < |order| => LedgerLine(order[i], idx[order[i]]))
  }

  /** A ledger line of single words reads back as written. */
  lemma ReadLedgerLineOf(path: string, m: Metadata)
    requires IsToken(path) && IsToken(m.sha) && IsToken(m.mode)
    ensures ReadLedgerLine(LedgerLine(path, m)) == (path, m)
  {
    var line := LedgerLine(path, m);
    assert line == [] + m.mode + (" " + m.sha + " " + path);
    ReadTokenOf([], m.mode, " " + m.sha + " " + path);
    assert " " + m.sha + " " + path == " " + m.sha + (" " + path);
    ReadTokenOf(" ", m.sha, " " + path);
    assert " " + path == " " + path + [];
    ReadTokenOf(" ", path, []);
  }

  /** A ledger line of single words is one line. */
  lemma LedgerLineSingle(path: string, m: Metadata)
    requires IsToken(path) && IsToken(m.sha) && IsToken(m.mode)
    ensures '\n' !in LedgerLine(path, m)
  {
    var line := LedgerLine(path, m);
    assert IsSpace('\n');
    forall k | 0 <= k < |line| ensures line[k] != '\n' {
      if k < |m.mode| {
        assert line[k] == m.mode[k];
      } else if k == |m.mode| || k == |m.mode| + 1 + |m.sha| {
        assert line[k] == ' ';
      } else if k < |m.mode| + 1 + |m.sha| {
        assert line[k] == m.sha[k - |m.mode| - 1];
      } else {
        assert line[k] == path[k - |m.mode| - 2 - |m.sha|];
      }
    }
  }

  /** Filling from one record per listed path gives back the index. */
  lemma FillEnumerated(recs: seq<Record>, idx: IndexMap, order: seq<string>)
    requires Enumerates(order, idx) && |recs| == |order|
    requires forall i | 0 <= i < |recs| :: recs[i] == (order[i], idx[order[i]])
    ensures Fill(recs) == idx
  {
    FillEnumeratedKeys(recs, idx, order);
    forall p | p in idx ensures Fill(recs)[p] == idx[p] {
      FillEnumeratedAt(recs, idx, order, p);
    }
    SameIndex(Fill(recs), idx);
  }

  lemma FillEnumeratedKeys(recs: seq<Record>, idx: IndexMap, order: seq<string>)
    requires |recs| == |order|
    requires forall i | 0 <= i < |order| :: order[i] in idx
    requires forall p | p in idx :: p in order
    requires forall i | 0 <= i < |recs| :: recs[i] == (order[i], idx[order[i]])
    ensures Fill(recs).Keys == idx.Keys
  {
    var paths := RecordPaths(recs);
    forall p | p in idx ensures p in paths {
      var i :| 0 <= i < |order| && order[i] == p;
      assert recs[i].0 == p;
    }
    forall p | p in paths ensures p in idx {
      var i :| 0 <= i < |recs| && recs[i].0 == p;
      assert order[i] == p;
    }
    assert Fill(recs).Keys == paths;
  }

  lemma FillEnumeratedAt(recs: seq<Record>, idx: IndexMap, order: seq<string>, p: string)
    requires Enumerates(order, idx) && |recs| == |order|
    requires forall i | 0 <= i < |recs| :: recs[i] == (order[i], idx[order[i]])
    requires p in idx
    ensures p in Fill(recs) && Fill(recs)[p] == idx[p]
  {
    var i :| 0 <= i < |order| && order[i] == p;
    forall j | i < j < |recs| ensures recs[j].0 != recs[i].0 {
      assert recs[j].0 == order[j];
    }
    FillLastWins(recs, i);
  }

  lemma SameIndex(a: IndexMap, b: IndexMap)
    requires a.Keys == b.Keys
    requires forall p | p in a :: a[p] == b[p]
    ensures a == b
  {
  }

  /** Writing the index one line per entry, in any order, and reading the
      ledger back gives the same index when every word is whitespace-free. */
  lemma LedgerRoundTrip(idx: IndexMap, order: seq<string>)
    requires TokensOk(idx) && Enumerates(order, idx)
    ensures LoadIndex(Some(JoinLines(LedgerLines(idx, order)))) == idx
  {
    var lines := LedgerLines(idx, order);
    forall i | 0 <= i < |lines| ensures '\n' !in lines[i] && ReadLedgerLine(lines[i]) == (order[i], idx[order[i]]) {
      ReadLedgerLineOf(order[i], idx[order[i]]);
      LedgerLineSingle(order[i], idx[order[i]]);
    }
    LinesOfJoined(lines);
    FillEnumerated(Records(lines), idx, order);
  }

  /** `saveIndex`: one ledger line per entry, in the map's iteration order,
      which the model leaves open. */
  method SaveIndex(idx: IndexMap) returns (ledger: string, order: seq<string>)
    ensures Enumerates(order, idx)
    ensures ledger == JoinLines(LedgerLines(idx, order))
    ensures TokensOk(idx) ==> LoadIndex(Some(ledger)) == idx
  {
    ledger := [];
    order := [];
    var pending := idx.Keys;
    while pending != {}
      invariant pending <= idx.Keys
      invariant forall i | 0 <= i < |order| :: order[i] in idx && order[i] !in pending
      invariant forall p | p in idx :: p in order || p in pending
      invariant forall i, j | 0 <= i < j < |order| :: order[i] != order[j]
      invariant ledger == JoinLines(LedgerLines(idx, order))
      decreases pending
    {
      var p :| p in pending;
      assert LedgerLines(idx, order + [p]) == LedgerLines(idx, order) + [LedgerLine(p, idx[p])];
      ledger := ledger + LedgerLine(p, idx[p]) + "\n";
      order := order + [p];
      pending := pending - {p};
    }
    if TokensOk(idx) {
      LedgerRoundTrip(idx, order);
    }
  }

  /** The entries whose path is still present, unchanged. */
  function Pruned(idx: IndexMap, present: set<string>): IndexMap {
    map p | p in idx && p in present :: idx[p]
  }

  /** `detecteDeletions`: walks the map, erasing every entry whose path no
      longer exists. */
  method DetectDeletions(idx: IndexMap, present: set<string>) returns (r: IndexMap)
    ensures forall p :: p in r <==> p in idx && p in present
    ensures forall p | p in r :: r[p] == idx[p]
    ensures r == Pruned(idx, present)
    ensures Pruned(r, present) == r
  {
    r := idx;
    var pending := idx.Keys;
    while pending != {}
      invariant pending <= idx.Keys
      invariant forall p :: p in r <==> p in idx && (p in pending || p in present)
      invariant forall p | p in r :: r[p] == idx[p]
      decreases pending
    {
      var p :| p in pending;
      if p !in present {
        r := r - {p};
      }
      pending := pending - {p};
    }
  }

  /** Whether `add` works on a path: it exists and is not a directory whose
      final component is `.mygit`. */
  predicate Processed(fs: map<string, Node>, path: string) {
    path in fs && !(fs[path].Dir? && BaseName(path) == ".mygit")
  }

  /** What staging a path records, if anything: a regular file under the name
      of its framed blob, a directory under its tree's name; both with the
      mode word `blob`. */
  function StagedAs(fs: map<string, Node>, path: string, digest: Hasher): Option<Metadata> {
    if !Processed(fs, path) then None
    else match fs[path]
      case File(_, content) => Some(Metadata(ToHex(digest(Frame("blob", content))), "blob"))
      case Dir(_, sub) => Some(Metadata(TreeName(sub, digest), "blob"))
      case Other(_) => None
  }

  /** One pass of `add`'s loop: stage the path (`processFile` or
      `processDirectory`) and prune deletions; a missing path or a `.mygit`
      directory is skipped before the pruning. */
  function StageOne(fs: map<string, Node>, idx: IndexMap, store: Store, path: string, digest: Hasher)
    : (r: (IndexMap, Store))
    ensures store.Keys <= r.1.Keys
    ensures !Processed(fs, path) ==> r.0 == idx
    ensures Processed(fs, path) ==> forall p | p in r.0 :: p in fs
    ensures forall p | p in r.0 :: p in idx || (p == path && StagedAs(fs, path, digest).Some?)
    ensures StagedAs(fs, path, digest).Some? ==> path in r.0 && r.0[path] == StagedAs(fs, path, digest).value
    ensures forall p | p in r.0 && !(p == path && StagedAs(fs, path, digest).Some?) :: r.0[p] == idx[p]
    ensures forall p | p in idx && p in fs :: p in r.0
  {
    if !Processed(fs, path) then (idx, store)
    else match fs[path]
      case File(_, content) =>
        var (sha, s) := HashObject(store, content, false, digest);
        (Pruned(idx[path := Metadata(sha, "blob")], fs.Keys), s)
      case Dir(_, sub) =>
        var w := WriteTree(sub, store, digest);
        (Pruned(idx[path := Metadata(w.sha, "blob")], fs.Keys), w.store)
      case Other(_) => (Pruned(idx, fs.Keys), store)
  }

  /** `add`'s loop over its arguments, in order. Each staged path ends up with
      what staging records for it; every other entry keeps its loaded value; a
      present entry is never dropped; and once any argument has been worked
      on, only present paths remain. */
  function StageAll(fs: map<string, Node>, files: seq<string>, idx: IndexMap, store: Store, digest: Hasher)
    : (r: (IndexMap, Store))
    ensures store.Keys <= r.1.Keys
    ensures forall p | p in r.0 :: p in idx || (p in files && StagedAs(fs, p, digest).Some?)
    ensures forall p | p in files && StagedAs(fs, p, digest).Some? :: p in r.0 && r.0[p] == StagedAs(fs, p, digest).value
    ensures forall p | p in r.0 && !(p in files && StagedAs(fs, p, digest).Some?) :: r.0[p] == idx[p]
    ensures forall p | p in idx && p in fs :: p in r.0
    ensures (exists p | p in files :: Processed(fs, p)) ==> forall p | p in r.0 :: p in fs
    ensures (forall p | p in files :: !Processed(fs, p)) ==> r.0 == idx
    decreases |files|
  {
    if files == [] then (idx, store)
    else
      var (idx', store') := StageOne(fs, idx, store, files[0], digest);
      var r := StageAll(fs, files[1..], idx', store', digest);
      assert forall p | p in files[1..] :: p in files;
      assert forall p | p in files :: p == files[0] || p in files[1..];
      r
  }

  /** `add`: load the ledger, stage every argument in order, write the ledger
      back. */
  method Add(fs: map<string, Node>, files: seq<string>, ledger: Option<string>, store: Store, digest: Hasher)
    returns (idx: IndexMap, saved: string, store': Store)
    ensures store.Keys <= store'.Keys
    ensures forall p | p in files && StagedAs(fs, p, digest).Some? :: p in idx && idx[p] == StagedAs(fs, p, digest).value
    ensures forall p | p in idx && !(p in files && StagedAs(fs, p, digest).Some?) ::
      p in LoadIndex(ledger) && idx[p] == LoadIndex(ledger)[p]
    ensures forall p | p in LoadIndex(ledger) && p in fs :: p in idx
    ensures (exists p | p in files :: Processed(fs, p)) ==> forall p | p in idx :: p in fs
    ensures TokensOk(idx) ==> LoadIndex(Some(saved)) == idx
  {
    var loaded := LoadIndex(ledger);
    var r := StageAll(fs, files, loaded, store, digest);
    idx, store' := r.0, r.1;
    var order;
    saved, order := SaveIndex(idx);
  }
}

=== FILE: objects.dfy ===
/** Object framing and the object database: `"<kind> <size>\0<payload>"`
    frames, `hashObject` for blobs, `writeObject` for trees, `writeBlob`'s bare
    content digest and `catFile`'s header parse. Compression is not modelled:
    the store holds each frame as inflating the object file would return it. */
module Objects {
  import opened Wrappers
  import opened Text
  import opened Hex

  /** The object database: object file location to the frame stored in it. */
  type Store = map<Location, string>

  /** `"<kind> <decimal payload length>\0"` followed by the payload. */
  function Frame(kind: string, payload: string): string {
    kind + " " + Decimal(|payload|) + [NUL] + payload
  }

  /** What `catFile` reads out of a frame: the kind word, the size as `>> size`
      stores it (`None` when nothing is left to read and `size` keeps whatever
      it held), and the payload. */
  datatype Header = Header(kind: string, size: Option<nat>, payload: string)

  datatype ObjectError =
    | ShortName(sha: string)   // `substr(2)` throws on a name shorter than 2
    | NotFound(at: Location)   // the object file cannot be opened
    | Unterminated             // the inflated data holds no NUL
    | InvalidFlag(flag: string)

  /** `catFile`'s header parse: split at the first NUL, then `>> type >> size`
      on the text before it; the payload is everything after that NUL. */
  function ParseFrame(f: string): (r: Result<Header, ObjectError>)
    ensures r.Success? <==> NUL in f
    ensures r.Success? ==> |r.value.payload| < |f|
    ensures r.Success? ==> var i := |f| - |r.value.payload| - 1;
      f[i] == NUL && NUL !in f[..i] && f[i + 1..] == r.value.payload
    ensures r.Success? ==> NoSpace(r.value.kind)
  {
    match Find(f, NUL, 0)
    case None => Failure(Unterminated)
    case Some(i) =>
      var (kind, rest) := ReadToken(f[..i]);
      Success(Header(kind, ReadSize(rest), f[i + 1..]))
  }

  /** Framing a payload under a kind word and parsing the header back gives the
      kind, the payload length and the payload itself. */
  lemma FrameRoundTrip(kind: string, payload: string)
    requires IsToken(kind)
    ensures ParseFrame(Frame(kind, payload)) == Success(Header(kind, Some(Saturate(|payload|)), payload))
  {
    var d := Decimal(|payload|);
    var f := Frame(kind, payload);
    var i := |kind| + 1 + |d|;
    assert f[..i] == kind + " " + d;
    assert NUL !in d by {
      assert forall j | 0 <= j < |d| :: IsDigit(d[j]);
    }
    FindAfter(f, NUL, 0, i);
    assert f[i + 1..] == payload;
    assert kind + " " + d == [] + kind + (" " + d);
    ReadTokenOf([], kind, " " + d);
    assert " " + d == " " + d + [];
    ReadSizeOfDecimal(" ", |payload|, []);
  }

  /** What `catFile` prints for each of its flags. */
  datatype CatMode = ShowType | ShowSize | ShowPayload

  /** `-t`, `-s` and `-p`; any other flag selects nothing. */
  function ModeOfFlag(flag: string): (m: Option<CatMode>)
    ensures m.Some? <==> flag in ["-t", "-s", "-p"]
  {
    if flag == "-t" then Some(ShowType)
    else if flag == "-s" then Some(ShowSize)
    else if flag == "-p" then Some(ShowPayload)
    else None
  }

  lemma ModeOfFlags()
    ensures ModeOfFlag("-t") == Some(ShowType)
    ensures ModeOfFlag("-s") == Some(ShowSize)
    ensures ModeOfFlag("-p") == Some(ShowPayload)
  {
    assert "-s"[1] != "-t"[1];
    assert "-p"[1] != "-t"[1] && "-p"[1] != "-s"[1];
  }

  /** The two kind words the store writes are single words. */
  lemma KindWords()
    ensures IsToken("blob") && IsToken("tree")
  {
    WordOfLetters("blob");
    WordOfLetters("tree");
  }

  /** A word of lower-case letters is a single word without NUL. */
  lemma WordOfLetters(w: string)
    requires |w| > 0 && forall i | 0 <= i < |w| :: 'a' <= w[i] <= 'z'
    ensures IsToken(w)
  {
    assert forall i | 0 <= i < |w| :: !IsSpace(w[i]) && w[i] != NUL;
  }

  /** `BUFFER_SIZE`: `catFile` inflates into buffers of this size. */
  const BufferSize: nat := 64 * 1024

  /** What `catFile` holds once its header loop stops, when the whole object
      file arrives in its first read: inflated buffers, each filled, up to and
      including the first that holds the NUL at `nul`, cut at the frame's end. */
  function Inflated(f: string, nul: nat): (r: string)
    requires nul < |f|
    ensures nul < |r| <= |f| && r == f[..|r|]
    ensures |f| <= BufferSize ==> r == f
    ensures nul < BufferSize < |f| ==> r == f[..BufferSize]
  {
    var end := BufferEnd(nul);
    if end < |f| then f[..end] else f
  }

  /** The end of the first whole buffer that reaches past position `nul`. */
  function BufferEnd(nul: nat): (end: nat)
    ensures nul < end <= nul + BufferSize
    ensures nul < BufferSize ==> end == BufferSize
    ensures end >= BufferSize && end % BufferSize == 0
    decreases nul
  {
    if nul < BufferSize then BufferSize else BufferSize + BufferEnd(nul - BufferSize)
  }

  /** What `catFile -p` prints of an object file that ends in `payload` after
      its header's NUL: the part of `payload` that the inflated buffers hold. */
  function Printed(f: string, payload: string): (r: string)
    requires |payload| < |f|
    ensures r <= f[|f| - |payload|..]
  {
    var nul := |f| - |payload| - 1;
    var b := Inflated(f, nul);
    assert b[nul + 1..] == f[nul + 1..|b|];
    b[nul + 1..]
  }

  /** The part of a framed payload that `catFile -p` prints. */
  function Shown(kind: string, payload: string): (r: string)
    ensures r <= payload
    ensures |Frame(kind, payload)| <= BufferSize ==> r == payload
    ensures var header := |Frame(kind, payload)| - |payload|;
      header <= BufferSize < |Frame(kind, payload)| ==> r == payload[..BufferSize - header]
  {
    var f := Frame(kind, payload);
    var nul := |f| - |payload| - 1;
    assert f[nul + 1..] == payload;
    Printed(f, payload)
  }

  /** Some object lives in the shard directory `dir`, so the directory exists. */
  predicate ShardExists(store: Store, dir: string) {
    exists l | l in store :: l.dir == dir
  }

  /** `catFile`: `-t` prints the kind, `-s` the size, `-p` the payload, each
      followed by a newline; any other flag is refused once the object is read.
      A two-character name opens the shard directory itself when it exists:
      reading it gives no input, and the header loop never finds a NUL. */
  function CatFile(store: Store, flag: string, sha: string): (r: Result<string, ObjectError>)
    ensures ObjectPath(sha).None? ==> r == Failure(ShortName(sha))
    ensures |sha| == 2 ==> r.Failure? && (r.error == Unterminated <==> ShardExists(store, sha))
    ensures r.Success? <==>
      && |sha| > 2
      && ObjectPath(sha).value in store
      && NUL in store[ObjectPath(sha).value]
      && ModeOfFlag(flag).Some?
  {
    match ObjectPath(sha)
    case None => Failure(ShortName(sha))
    case Some(p) =>
      if p.file == [] then
        if ShardExists(store, p.dir) then Failure(Unterminated) else Failure(NotFound(p))
      else if p !in store then Failure(NotFound(p))
      else
        match ParseFrame(store[p])
        case Failure(e) => Failure(e)
        case Success(h) =>
          match ModeOfFlag(flag)
          case None => Failure(InvalidFlag(flag))
          case Some(ShowType) => Success(h.kind + "\n")
          case Some(ShowSize) => Success(Decimal(h.size.GetOr(0)) + "\n")
          case Some(ShowPayload) =>
            Success(Printed(store[p], h.payload) + "\n")
  }

  /** Reading an object that holds a frame prints back its kind, its payload
      length and the payload the inflated buffers hold: all of it when the frame
      fits in one buffer. */
  lemma CatFileOfFrame(store: Store, sha: string, kind: string, payload: string)
    requires IsToken(kind)
    requires |sha| > 2 && ObjectPath(sha).value in store
    requires store[ObjectPath(sha).value] == Frame(kind, payload)
    ensures CatFile(store, "-t", sha) == Success(kind + "\n")
    ensures CatFile(store, "-s", sha) == Success(Decimal(Saturate(|payload|)) + "\n")
    ensures CatFile(store, "-p", sha) == Success(Shown(kind, payload) + "\n")
  {
    FrameRoundTrip(kind, payload);
    ModeOfFlags();
  }

  /** `writeBlob`: the digest name of a file's bare content, with no header. */
  function ContentName(content: string, digest: Hasher): (sha: string)
    ensures |sha| == 40 && forall i | 0 <= i < 40 :: IsLowerHex(sha[i])
  {
    ToHex(digest(content))
  }

  /** Every SHA-1 name is long enough to have an object location. */
  lemma NameHasLocation(d: Sha1)
    ensures |ToHex(d)| == 40 && ObjectPath(ToHex(d)).Some?
  {
  }

  /** `hashObject`: names a file by the digest of its framed blob and, when
      asked to, stores that frame under the name. */
  function HashObject(store: Store, content: string, createBlob: bool, digest: Hasher): (r: (string, Store))
    ensures |r.0| == 40 && forall i | 0 <= i < 40 :: IsLowerHex(r.0[i])
    ensures r.0 == ToHex(digest(Frame("blob", content)))
    ensures ObjectPath(r.0).Some?
    ensures r.1 == if createBlob then store[ObjectPath(r.0).value := Frame("blob", content)] else store
  {
    var frame := Frame("blob", content);
    var sha := ToHex(digest(frame));
    NameHasLocation(digest(frame));
    if createBlob then (sha, store[ObjectPath(sha).value := frame]) else (sha, store)
  }

  /** What `hashObject` does to the store: with `createBlob` it adds exactly
      the blob's location, whose frame parses back to `blob`, the content length
      and the content; every other object is untouched. */
  lemma HashObjectStores(store: Store, content: string, createBlob: bool, digest: Hasher)
    ensures var (sha, s) := HashObject(store, content, createBlob, digest);
      var loc := ObjectPath(sha).value;
      && s.Keys == (if createBlob then store.Keys + {loc} else store.Keys)
      && (createBlob ==> ParseFrame(s[loc]) == Success(Header("blob", Some(Saturate(|content|)), content)))
      && forall k | k in store && k != loc :: s[k] == store[k]
  {
    KindWords();
    FrameRoundTrip("blob", content);
  }

  /** A blob written by `hashObject` is content-addressed: its name is the
      digest of exactly the stored frame, and `catFile` prints back `blob`, the
      content length and the content as far as the inflated buffers hold it. */
  lemma HashObjectReadsBack(store: Store, content: string, digest: Hasher)
    ensures var (sha, s) := HashObject(store, content, true, digest);
      && ObjectPath(sha).Some? && sha == ToHex(digest(s[ObjectPath(sha).value]))
      && CatFile(s, "-t", sha) == Success("blob\n")
      && CatFile(s, "-s", sha) == Success(Decimal(Saturate(|content|)) + "\n")
      && CatFile(s, "-p", sha) == Success(Shown("blob", content) + "\n")
  {
    var (sha, s) := HashObject(store, content, true, digest);
    KindWords();
    assert "blob" + "\n" == "blob\n";
    CatFileOfFrame(s, sha, "blob", content);
  }

  /** `writeObject`: stores a tree payload framed as `tree`, under the digest of
      the bare payload (not of the stored frame). */
  function WriteObject(store: Store, payload: string, digest: Hasher): (r: Store)
    ensures ObjectPath(ToHex(digest(payload))).Some?
    ensures r == store[ObjectPath(ToHex(digest(payload))).value := Frame("tree", payload)]
  {
    var sha := ToHex(digest(payload));
    NameHasLocation(digest(payload));
    store[ObjectPath(sha).value := Frame("tree", payload)]
  }

  /** What `writeObject` does to the store: it adds exactly the location of
      the payload's digest name, whose frame parses back to `tree`, the payload
      length and the payload; every other object is untouched. */
  lemma WriteObjectStores(store: Store, payload: string, digest: Hasher)
    ensures var loc := ObjectPath(ToHex(digest(payload))).value;
      var s := WriteObject(store, payload, digest);
      && s.Keys == store.Keys + {loc}
      && ParseFrame(s[loc]) == Success(Header("tree", Some(Saturate(|payload|)), payload))
      && forall k | k in store && k != loc :: s[k] == store[k]
  {
    KindWords();
    FrameRoundTrip("tree", payload);
  }

  /** After `writeObject`, reading the payload's digest name prints back `tree`,
      the payload length and the payload as far as the inflated buffers hold it. */
  lemma WriteObjectReadsBack(store: Store, payload: string, digest: Hasher)
    ensures var sha := ToHex(digest(payload));
      && CatFile(WriteObject(store, payload, digest), "-t", sha) == Success("tree\n")
      && CatFile(WriteObject(store, payload, digest), "-s", sha) == Success(Decimal(Saturate(|payload|)) + "\n")
      && CatFile(WriteObject(store, payload, digest), "-p", sha) == Success(Shown("tree", payload) + "\n")
  {
    var s := WriteObject(store, payload, digest);
    var sha := ToHex(digest(payload));
    NameHasLocation(digest(payload));
    assert ObjectPath(sha).Some? && ObjectPath(sha).value in s;
    assert s[ObjectPath(sha).value] == Frame("tree", payload);
    KindWords();
    assert "tree" + "\n" == "tree\n";
    CatFileOfFrame(s, sha, "tree", payload);
  }
}

=== FILE: snapshot.dfy ===
/** The snapshot merge behind `commit`: `updateTree` carries forward the
    previous tree's entries whose names still exist and overlays the staged
    ledger lines, and `commit` concatenates the merged entry texts into the
    new tree payload. */
module Snapshot {
  import opened Wrappers
  import opened Text
  import opened Hex
  import opened Objects
  import opened TreeCodec
  import opened WorkTree
  import opened Index

  /** `updateTree`'s result: entry name to the entry's serialized text. */
  type Merged = map<string, string>

  /** The entry text a ledger line contributes: type `blob` gives a `100644`
      entry, type `tree` a `040000` entry, any other type nothing. */
  function StagedText(rec: Record): Option<string> {
    if rec.1.mode == "blob" then Some("100644 " + rec.0 + [NUL] + rec.1.sha)
    else if rec.1.mode == "tree" then Some("040000 " + rec.0 + [NUL] + rec.1.sha)
    else None
  }

  /** The entry that text stands for. */
  function StagedEntry(rec: Record): TreeEntry {
    if rec.1.mode == "blob" then TreeEntry(FileMode, rec.0, Blob, rec.1.sha)
    else TreeEntry(DirMode, rec.0, Tree, rec.1.sha)
  }

  lemma StagedTextOf(rec: Record)
    requires StagedText(rec).Some?
    ensures StagedText(rec).value == EntryText(StagedEntry(rec))
  {
    assert "100644 " == FileMode + " ";
    assert "040000 " == DirMode + " ";
  }

  /** The ledger loop of `updateTree`: each staged line, in order, overwrites
      the entry of its name. */
  function Overlay(m: Merged, recs: seq<Record>): Merged
    decreases |recs|
  {
    if recs == [] then m
    else
      var m' := match StagedText(recs[0])
        case None => m
        case Some(text) => m[recs[0].0 := text];
      Overlay(m', recs[1..])
  }

  /** A ledger line that stages `name`: it names that path and has type
      `blob` or `tree`. */
  predicate Stages(rec: Record, name: string) {
    rec.0 == name && StagedText(rec).Some?
  }

  /** The last ledger line that stages `name`, searched from the end. */
  function LastStaged(recs: seq<Record>, name: string): (r: Option<Record>)
    ensures r.Some? ==> r.value in recs && r.value.0 == name && StagedText(r.value).Some?
    ensures r.None? <==> forall i | 0 <= i < |recs| :: !Stages(recs[i], name)
    decreases |recs|
  {
    if recs == [] then None
    else
      var last := recs[|recs| - 1];
      var init := recs[..|recs| - 1];
      assert forall i | 0 <= i < |init| :: init[i] == recs[i];
      if Stages(last, name) then Some(last)
      else LastStaged(init, name)
  }

  /** The line `LastStaged` finds is the last one that stages the name: it
      sits at some index, and no later line stages that name. */
  lemma {:induction false} LastStagedIsLast(recs: seq<Record>, name: string)
    requires LastStaged(recs, name).Some?
    ensures exists i | 0 <= i < |recs| :: (recs[i] == LastStaged(recs, name).value &&
      forall j | i < j < |recs| :: !Stages(recs[j], name))
    decreases |recs|
  {
    var n := |recs| - 1;
    var r := LastStaged(recs, name).value;
    if Stages(recs[n], name) {
      assert recs[n] == r;
    } else {
      var init := recs[..n];
      assert LastStaged(init, name) == LastStaged(recs, name);
      LastStagedIsLast(init, name);
      var i :| 0 <= i < |init| && (init[i] == r && forall j | i < j < |init| :: !Stages(init[j], name));
      assert recs[i] == r;
      forall j | i < j < |recs|
        ensures !Stages(recs[j], name)
      {
        if j < n {
          assert recs[j] == init[j];
        }
      }
    }
  }

  lemma {:induction false} LastStagedCons(rec: Record, recs: seq<Record>, name: string)
    ensures LastStaged([rec] + recs, name) ==
      if LastStaged(recs, name).Some? then LastStaged(recs, name)
      else if rec.0 == name && StagedText(rec).Some? then Some(rec)
      else None
    decreases |recs|
  {
    if recs == [] {
      assert ([rec] + recs)[..0] == [];
    } else {
      var n := |recs| - 1;
      assert ([rec] + recs)[..n + 1] == [rec] + recs[..n];
      LastStagedCons(rec, recs[..n], name);
    }
  }

  /** Overlaying keeps every earlier key and adds exactly the staged names;
      a staged name takes the text of its last staging line, any other key
      keeps its earlier text. */
  lemma OverlayLastStaged(m: Merged, recs: seq<Record>)
    ensures forall k :: k in Overlay(m, recs) <==> k in m || LastStaged(recs, k).Some?
    ensures forall k | k in Overlay(m, recs) ::
      Overlay(m, recs)[k] == if LastStaged(recs, k).Some? then StagedText(LastStaged(recs, k).value).value else m[k]
  {
    var o := Overlay(m, recs);
    forall k ensures k in o <==> k in m || LastStaged(recs, k).Some? {
      OverlayOf(m, recs, k);
    }
    forall k | k in o
      ensures o[k] == if LastStaged(recs, k).Some? then StagedText(LastStaged(recs, k).value).value else m[k]
    {
      OverlayOf(m, recs, k);
    }
  }

  predicate OverlayAt(m: Merged, recs: seq<Record>, k: string) {
    && (k in Overlay(m, recs) <==> k in m || LastStaged(recs, k).Some?)
    && (k in Overlay(m, recs) ==>
          Overlay(m, recs)[k] == if LastStaged(recs, k).Some? then StagedText(LastStaged(recs, k).value).value else m[k])
  }

  lemma {:induction false} OverlayOf(m: Merged, recs: seq<Record>, k: string)
    ensures OverlayAt(m, recs, k)
    decreases |recs|
  {
    if recs != [] {
      var m' := match StagedText(recs[0])
        case None => m
        case Some(text) => m[recs[0].0 := text];
      assert Overlay(m, recs) == Overlay(m', recs[1..]);
      OverlayOf(m', recs[1..], k);
      assert recs == [recs[0]] + recs[1..];
      LastStagedCons(recs[0], recs[1..], k);
    }
  }

  /** `updateTree`: keeps each previous entry whose name still exists,
      re-serialised, then overlays the staged ledger lines; `None` where the
      source falls off its `return;` because the ledger is missing. */
  function UpdateTree(prev: map<string, TreeEntry>, present: set<string>, ledger: Option<string>): (r: Option<Merged>)
    requires KeyedByName(prev)
    ensures r.Some? <==> ledger.Some?
    ensures r.Some? ==> var recs := Records(Lines(ledger.value));
      forall k :: k in r.value <==> (k in prev && k in present) || LastStaged(recs, k).Some?
    ensures r.Some? ==> var recs := Records(Lines(ledger.value));
      forall k | k in r.value :: r.value[k] ==
        if LastStaged(recs, k).Some? then StagedText(LastStaged(recs, k).value).value else EntryText(prev[k])
  {
    match ledger
    case None => None
    case Some(text) =>
      var recs := Records(Lines(text));
      var carried := map k | k in prev && k in present :: prev[k].name := EntryText(prev[k]);
      assert forall k :: k in carried <==> k in prev && k in present;
      OverlayLastStaged(carried, recs);
      Some(Overlay(carried, recs))
  }

  /** A map's values picked out in the given order of keys. */
  function Values<V>(m: map<string, V>, order: seq<string>): (vs: seq<V>)
    requires forall i | 0 <= i < |order| :: order[i] in m
    ensures |vs| == |order|
    ensures forall i | 0 <= i < |order| :: vs[i] == m[order[i]]
  {
    seq(|order|, i requires 0 <= i < |order| => m[order[i]])
  }

  /** `commit`'s loop `treeData += entrydata` over the merged map, in its
      iteration order, which the model leaves open. */
  method CommitPayload(merged: Merged) returns (payload: string, order: seq<string>)
    ensures Enumerates(order, merged)
    ensures payload == Concat(Values(merged, order))
  {
    payload := [];
    order := [];
    var pending := merged.Keys;
    while pending != {}
      invariant pending <= merged.Keys
      invariant forall i | 0 <= i < |order| :: order[i] in merged && order[i] !in pending
      invariant forall p | p in merged :: p in order || p in pending
      invariant forall i, j | 0 <= i < j < |order| :: order[i] != order[j]
      invariant payload == Concat(Values(merged, order))
      decreases pending
    {
      var p :| p in pending;
      assert Values(merged, order + [p]) == Values(merged, order) + [merged[p]];
      ConcatAppend(Values(merged, order), [merged[p]]);
      assert Concat([merged[p]]) == merged[p] + Concat([]);
      payload := payload + merged[p];
      order := order + [p];
      pending := pending - {p};
    }
  }

  lemma {:induction false} SerializeAsConcat(es: seq<TreeEntry>)
    ensures Serialize(es) == Concat(seq(|es|, i requires 0 <= i < |es| => EntryText(es[i])))
    decreases |es|
  {
    var texts := seq(|es|, i requires 0 <= i < |es| => EntryText(es[i]));
    if es != [] {
      SerializeAsConcat(es[1..]);
      assert texts[1..] == seq(|es[1..]|, i requires 0 <= i < |es[1..]| => EntryText(es[1..][i]));
    }
  }

  /** Merged texts that are entry texts concatenate to a serialized payload. */
  lemma PayloadIsSerialized(merged: Merged, order: seq<string>, entries: map<string, TreeEntry>)
    requires forall i | 0 <= i < |order| :: order[i] in merged
    requires forall k | k in merged :: k in entries && merged[k] == EntryText(entries[k])
    ensures Concat(Values(merged, order)) == Serialize(Values(entries, order))
  {
    var es := Values(entries, order);
    assert Values(merged, order) == seq(|es|, i requires 0 <= i < |es| => EntryText(es[i]));
    SerializeAsConcat(es);
  }

  /** The map read from entries listed once each, by their own names. */
  lemma MapOfOrdered(data: string, order: seq<string>, entries: map<string, TreeEntry>, keys: set<string>)
    requires forall i | 0 <= i < |order| :: order[i] in entries && order[i] in keys
    requires forall k | k in keys :: k in order && k in entries && entries[k].name == k
    requires forall i, j | 0 <= i < j < |order| :: order[i] != order[j]
    requires ParseTree(data) == Success(Values(entries, order))
    ensures ParseTreeMap(data) == Success(map k | k in keys :: entries[k])
  {
    var es := Values(entries, order);
    MapViewOfList(data);
    var m := ParseTreeMap(data).value;
    var want := map k | k in keys :: entries[k];
    assert m.Keys == want.Keys by {
      forall k | k in want ensures k in Names(es) {
        var i :| 0 <= i < |order| && order[i] == k;
        assert es[i].name == k;
      }
    }
    forall k | k in want ensures m[k] == want[k] {
      OrderedAt(order, entries, keys, k);
    }
    SameEntries(m, want);
  }

  /** The one position that lists `k` is the last to carry its name. */
  lemma OrderedAt(order: seq<string>, entries: map<string, TreeEntry>, keys: set<string>, k: string)
    requires forall i | 0 <= i < |order| :: order[i] in entries && order[i] in keys
    requires forall k | k in keys :: k in order && k in entries && entries[k].name == k
    requires forall i, j | 0 <= i < j < |order| :: order[i] != order[j]
    requires k in keys
    ensures exists i | 0 <= i < |order| ::
      && Values(entries, order)[i] == entries[k]
      && (forall j | i < j < |order| :: Values(entries, order)[j].name != Values(entries, order)[i].name)
  {
    var es := Values(entries, order);
    var i :| 0 <= i < |order| && order[i] == k;
    assert es[i].name == k;
    assert forall j | i < j < |es| :: es[j].name == order[j];
  }

  lemma SameEntries(a: map<string, TreeEntry>, b: map<string, TreeEntry>)
    requires a.Keys == b.Keys
    requires forall k | k in a :: a[k] == b[k]
    ensures a == b
  {
  }

  /** Whatever order `commit` concatenates the merged texts in, parsing the
      stored payload by name gives back the entries they stand for. */
  lemma PayloadReadsBack(merged: Merged, order: seq<string>, entries: map<string, TreeEntry>)
    requires Enumerates(order, merged) && merged.Keys == entries.Keys
    requires forall k | k in merged :: MergedTextAt(merged, entries, k)
    ensures ParseTreeMap(Frame("tree", Concat(Values(merged, order)))) == Success(entries)
  {
    forall k | k in merged ensures merged[k] == EntryText(entries[k]) {
      assert MergedTextAt(merged, entries, k);
    }
    var es := Values(entries, order);
    PayloadIsSerialized(merged, order, entries);
    forall i | 0 <= i < |es| ensures WellFormed(es[i]) {
      assert MergedTextAt(merged, entries, order[i]);
    }
    TreeRoundTrip(es);
    forall k | k in merged ensures entries[k].name == k {
      assert MergedTextAt(merged, entries, k);
    }
    MapOfOrdered(Frame("tree", Serialize(es)), order, entries, merged.Keys);
    SameEntries(map k | k in merged.Keys :: entries[k], entries);
  }

  /** The entry each merged name stands for: its last staging line's entry,
      or else the previous tree's entry. */
  function MergedEntries(prev: map<string, TreeEntry>, present: set<string>, recs: seq<Record>): map<string, TreeEntry> {
    map k | k in (prev.Keys * present) + RecordPaths(recs) && ((k in prev && k in present) || LastStaged(recs, k).Some?) ::
      if LastStaged(recs, k).Some? then StagedEntry(LastStaged(recs, k).value) else prev[k]
  }

  /** Every staging line names a single word and a 40-character object. */
  predicate StagedOk(recs: seq<Record>) {
    forall rec | rec in recs && StagedText(rec).Some? :: IsToken(rec.0) && |rec.1.sha| == HashWidth
  }

  /** A previous tree the payload format can carry. */
  predicate CarriableTree(prev: map<string, TreeEntry>) {
    KeyedByName(prev) && forall k | k in prev :: WellFormed(prev[k])
  }

  /** What `updateTree` promises of its result, as a relation. */
  ghost predicate IsMerge(merged: Merged, prev: map<string, TreeEntry>, present: set<string>, recs: seq<Record>) {
    && (forall k :: k in merged <==> (k in prev && k in present) || LastStaged(recs, k).Some?)
    && (forall k | k in merged :: merged[k] ==
          if LastStaged(recs, k).Some? then StagedText(LastStaged(recs, k).value).value else EntryText(prev[k]))
  }

  /** Each merged text is the text of the entry it stands for, and that entry
      is well formed and carries its key as its name. */
  lemma MergedTexts(merged: Merged, prev: map<string, TreeEntry>, present: set<string>, recs: seq<Record>)
    requires CarriableTree(prev) && StagedOk(recs) && IsMerge(merged, prev, present, recs)
    ensures merged.Keys == MergedEntries(prev, present, recs).Keys
    ensures forall k | k in merged :: MergedTextAt(merged, MergedEntries(prev, present, recs), k)
  {
    var entries := MergedEntries(prev, present, recs);
    forall k | k in merged ensures k in entries {
      if LastStaged(recs, k).Some? {
        var rec := LastStaged(recs, k).value;
        var i :| 0 <= i < |recs| && recs[i] == rec;
        assert k in RecordPaths(recs);
      }
    }
    forall k | k in merged ensures MergedTextAt(merged, entries, k) {
      MergedEntryOf(merged, prev, present, recs, k);
    }
  }

  predicate MergedTextAt(merged: Merged, entries: map<string, TreeEntry>, k: string)
    requires k in merged
  {
    k in entries && entries[k].name == k && WellFormed(entries[k]) && merged[k] == EntryText(entries[k])
  }

  lemma MergedEntryOf(merged: Merged, prev: map<string, TreeEntry>, present: set<string>, recs: seq<Record>, k: string)
    requires CarriableTree(prev) && StagedOk(recs) && IsMerge(merged, prev, present, recs)
    requires k in merged && k in MergedEntries(prev, present, recs)
    ensures MergedTextAt(merged, MergedEntries(prev, present, recs), k)
  {
    var e := MergedEntries(prev, present, recs)[k];
    ModeWords();
    match LastStaged(recs, k)
    case Some(rec) =>
      assert e == StagedEntry(rec);
      StagedTextOf(rec);
    case None =>
      assert e == prev[k];
  }

  /** Why `commit` stops without a tree: the parent cannot be read as a tree
      (a short name or a payload with no NUL left), or the ledger is missing. */
  datatype CommitError = BadParent(parent: string) | NoLedger

  /** The tree-writing part of `commit`. With no parent the working tree is
      written by `writeTree`; otherwise the parent's entries are merged with
      the ledger, concatenated, stored by `writeObject` and named by the
      digest of the payload. */
  method CommitTree(store: Store, root: seq<Node>, parent: Option<string>, present: set<string>,
                    ledger: Option<string>, digest: Hasher)
    returns (r: Result<(string, Store), CommitError>, order: seq<string>)
    ensures parent.None? ==> r.Success? && r.value.0 == TreeName(root, digest)
    ensures parent.Some? ==> (r.Success? <==> GetTreeData(store, parent.value).Some? && ledger.Some?)
    ensures r.Success? ==> store.Keys <= r.value.1.Keys
    ensures r.Success? ==> ObjectPath(r.value.0).Some? && ObjectPath(r.value.0).value in r.value.1
    ensures parent.None? ==> r.value.1[ObjectPath(r.value.0).value] == Frame("tree", Serialize(Listing(root, digest)))
    ensures r.Success? && parent.Some? ==>
      var merged := UpdateTree(GetTreeData(store, parent.value).value, present, ledger).value;
      && Enumerates(order, merged)
      && r.value.0 == ToHex(digest(Concat(Values(merged, order))))
      && r.value.1[ObjectPath(r.value.0).value] == Frame("tree", Concat(Values(merged, order)))
    ensures (&& r.Success? && parent.Some? && CarriableTree(GetTreeData(store, parent.value).value)
             && StagedOk(Records(Lines(ledger.value)))) ==>
      GetTreeData(r.value.1, r.value.0) ==
        Some(MergedEntries(GetTreeData(store, parent.value).value, present, Records(Lines(ledger.value))))
  {
    order := [];
    if parent.None? {
      var w := WriteTree(root, store, digest);
      return Success((w.sha, w.store)), order;
    }
    var prev := GetTreeData(store, parent.value);
    if prev.None? {
      return Failure(BadParent(parent.value)), order;
    }
    var merged := UpdateTree(prev.value, present, ledger);
    if merged.None? {
      return Failure(NoLedger), order;
    }
    var payload;
    payload, order := CommitPayload(merged.value);
    var store' := WriteObject(store, payload, digest);
    var sha := ToHex(digest(payload));
    r := Success((sha, store'));
    if CarriableTree(prev.value) && StagedOk(Records(Lines(ledger.value))) {
      CommitReadsBack(store, payload, order, prev.value, present, ledger.value, digest);
    }
  }

  /** A merged tree stored by `commit` reads back, by name, as the merged entries. */
  lemma CommitReadsBack(store: Store, payload: string, order: seq<string>, prev: map<string, TreeEntry>,
                        present: set<string>, text: string, digest: Hasher)
    requires CarriableTree(prev) && StagedOk(Records(Lines(text)))
    requires Enumerates(order, UpdateTree(prev, present, Some(text)).value)
    requires payload == Concat(Values(UpdateTree(prev, present, Some(text)).value, order))
    ensures GetTreeData(WriteObject(store, payload, digest), ToHex(digest(payload)))
         == Some(MergedEntries(prev, present, Records(Lines(text))))
  {
    var recs := Records(Lines(text));
    var merged := UpdateTree(prev, present, Some(text)).value;
    assert IsMerge(merged, prev, present, recs);
    StoredMergeReadsBack(store, payload, order, merged, prev, present, recs, digest);
  }

  lemma StoredMergeReadsBack(store: Store, payload: string, order: seq<string>, merged: Merged,
                             prev: map<string, TreeEntry>, present: set<string>, recs: seq<Record>, digest: Hasher)
    requires CarriableTree(prev) && StagedOk(recs) && IsMerge(merged, prev, present, recs)
    requires Enumerates(order, merged)
    requires payload == Concat(Values(merged, order))
    ensures GetTreeData(WriteObject(store, payload, digest), ToHex(digest(payload)))
         == Some(MergedEntries(prev, present, recs))
  {
    MergeParses(payload, order, merged, prev, present, recs);
    StoredTreeData(store, payload, digest, MergedEntries(prev, present, recs));
  }

  lemma MergeParses(payload: string, order: seq<string>, merged: Merged,
                    prev: map<string, TreeEntry>, present: set<string>, recs: seq<Record>)
    requires CarriableTree(prev) && StagedOk(recs) && IsMerge(merged, prev, present, recs)
    requires Enumerates(order, merged)
    requires payload == Concat(Values(merged, order))
    ensures ParseTreeMap(Frame("tree", payload)) == Success(MergedEntries(prev, present, recs))
  {
    MergedTexts(merged, prev, present, recs);
    PayloadReadsBack(merged, order, MergedEntries(prev, present, recs));
  }

  /** `getTreeData` on a payload just written by `writeObject` gives its map view. */
  lemma StoredTreeData(store: Store, payload: string, digest: Hasher, m: map<string, TreeEntry>)
    requires ParseTreeMap(Frame("tree", payload)) == Success(m)
    ensures GetTreeData(WriteObject(store, payload, digest), ToHex(digest(payload))) == Some(m)
  {
    var s := WriteObject(store, payload, digest);
    var p := ObjectPath(ToHex(digest(payload))).value;
    assert s[p] == Frame("tree", payload);
    assert s[p] != [];
  }
}

=== FILE: text.dfy ===
/** Character-level helpers that stand in for the C++ standard library calls the
    object store relies on: `isspace`, `string::find`, `getline`, `to_string`,
    the `>>` word and number extractions, and `path::filename`. */
module Text {
  import opened Wrappers

  const NUL: char := '\0'

  /** `isspace` in the "C" locale: space, tab, newline, vertical tab, form feed, carriage return. */
  predicate IsSpace(c: char) {
    c == ' ' || '\t' <= c <= '\r'
  }

  predicate AllSpace(s: string) {
    forall i | 0 <= i < |s| :: IsSpace(s[i])
  }

  predicate NoSpace(s: string) {
    forall i | 0 <= i < |s| :: !IsSpace(s[i])
  }

  /** A word that one `>>` extraction returns unchanged and that may stand in
      front of a NUL separator: non-empty, free of whitespace and of NUL. */
  predicate IsToken(s: string) {
    |s| > 0 && NoSpace(s) && NUL !in s
  }

  /** The whitespace skipping that starts every `>>` extraction. */
  function SkipSpace(s: string): (r: string)
    ensures |r| <= |s|
    ensures r == [] || !IsSpace(r[0])
  {
    if |s| > 0 && IsSpace(s[0]) then SkipSpace(s[1..]) else s
  }

  /** Skipping whitespace consumes everything exactly when only whitespace is left. */
  lemma {:induction false} SkipSpaceAll(s: string)
    ensures SkipSpace(s) == [] <==> AllSpace(s)
    decreases |s|
  {
    if |s| > 0 && IsSpace(s[0]) {
      SkipSpaceAll(s[1..]);
      assert AllSpace(s) <==> AllSpace(s[1..]) by {
        assert forall i | 1 <= i < |s| :: s[i] == s[1..][i - 1];
      }
    }
  }

  /** Length of the run of non-whitespace characters at the front of `s`. */
  function WordLength(s: string): (n: nat)
    ensures n <= |s|
    ensures NoSpace(s[..n])
    ensures n == |s| || IsSpace(s[n])
  {
    if |s| > 0 && !IsSpace(s[0]) then 1 + WordLength(s[1..]) else 0
  }

  /** One `stream >> word` extraction on the unread text `s`: the word read
      (empty when the extraction fails) and the text left unread. */
  function ReadToken(s: string): (r: (string, string))
    ensures NoSpace(r.0)
    ensures r.1 == [] || IsSpace(r.1[0])
    ensures r.0 == [] ==> r.1 == []
    ensures |r.0| + |r.1| <= |s|
  {
    var t := SkipSpace(s);
    var n := WordLength(t);
    assert t[..n] + t[n..] == t;
    (t[..n], t[n..])
  }

  lemma {:induction false} SkipSpaceOf(pre: string, s: string)
    requires AllSpace(pre)
    requires s == [] || !IsSpace(s[0])
    ensures SkipSpace(pre + s) == s
    decreases |pre|
  {
    if pre == [] {
      assert pre + s == s;
    } else {
      assert (pre + s)[1..] == pre[1..] + s;
      SkipSpaceOf(pre[1..], s);
    }
  }

  lemma {:induction false} WordLengthOf(w: string, rest: string)
    requires NoSpace(w)
    requires rest == [] || IsSpace(rest[0])
    ensures WordLength(w + rest) == |w|
    decreases |w|
  {
    if w == [] {
      assert w + rest == rest;
    } else {
      assert (w + rest)[1..] == w[1..] + rest;
      WordLengthOf(w[1..], rest);
    }
  }

  /** Reading a word that is preceded only by whitespace and followed by
      whitespace (or nothing) returns exactly that word and leaves the rest. */
  lemma ReadTokenOf(pre: string, w: string, rest: string)
    requires AllSpace(pre)
    requires w != [] && NoSpace(w)
    requires rest == [] || IsSpace(rest[0])
    ensures ReadToken(pre + w + rest) == (w, rest)
  {
    assert pre + w + rest == pre + (w + rest);
    SkipSpaceOf(pre, w + rest);
    WordLengthOf(w, rest);
    assert (w + rest)[..|w|] == w;
    assert (w + rest)[|w|..] == rest;
  }

  /** `s.find(c, from)`: the first position at or after `from` that holds `c`. */
  function Find(s: string, c: char, from: nat): (r: Option<nat>)
    ensures r.Some? ==> from <= r.value < |s| && s[r.value] == c
    ensures r.Some? ==> forall j | from <= j < r.value :: s[j] != c
    ensures r.None? ==> forall j | from <= j < |s| :: s[j] != c
    decreases |s| - from
  {
    if from >= |s| then None
    else if s[from] == c then Some(from)
    else Find(s, c, from + 1)
  }

  /** `Find` stops at the first `c` after a stretch that holds none. */
  lemma FindAfter(s: string, c: char, from: nat, at: nat)
    requires from <= at < |s| && s[at] == c
    requires forall j | from <= j < at :: s[j] != c
    ensures Find(s, c, from) == Some(at)
  {
  }

  /** The lines `getline` returns one after another: text up to each '\n',
      plus a final line when the text does not end in '\n'. */
  function Lines(s: string): (r: seq<string>)
    ensures forall i | 0 <= i < |r| :: '\n' !in r[i]
    decreases |s|
  {
    if s == [] then []
    else match Find(s, '\n', 0)
      case None => [s]
      case Some(i) => [s[..i]] + Lines(s[i + 1..])
  }

  /** Appending one newline-terminated line to a text that ends at a line
      boundary appends exactly that line to what `getline` reads. */
  lemma {:induction false} LinesAppend(a: string, line: string)
    requires a == [] || a[|a| - 1] == '\n'
    requires '\n' !in line
    ensures Lines(a + line + "\n") == Lines(a) + [line]
    decreases |a|
  {
    var s := a + line + "\n";
    if a == [] {
      assert s == line + "\n";
      FindAfter(s, '\n', 0, |line|);
      assert s[..|line|] == line;
      assert s[|line| + 1..] == [];
    } else {
      var i := Find(a, '\n', 0).value;
      FindAfter(s, '\n', 0, i);
      assert s[..i] == a[..i];
      var a' := a[i + 1..];
      assert s[i + 1..] == a' + line + "\n";
      LinesAppend(a', line);
    }
  }

  /** Each line followed by a newline, as a loop of `out << line << '\n'` writes them. */
  function JoinLines(lines: seq<string>): (s: string)
    ensures s == [] || s[|s| - 1] == '\n'
    decreases |lines|
  {
    if lines == [] then [] else JoinLines(lines[..|lines| - 1]) + lines[|lines| - 1] + "\n"
  }

  /** `getline` reads back exactly the lines that were written, when none of
      them holds a newline. */
  lemma {:induction false} LinesOfJoined(lines: seq<string>)
    requires forall i | 0 <= i < |lines| :: '\n' !in lines[i]
    ensures Lines(JoinLines(lines)) == lines
    decreases |lines|
  {
    if lines != [] {
      var n := |lines| - 1;
      LinesOfJoined(lines[..n]);
      LinesAppend(JoinLines(lines[..n]), lines[n]);
      assert lines[..n] + [lines[n]] == lines;
    }
  }

  /** The strings of `parts` joined in order, as `treeData += entry` builds them. */
  function Concat(parts: seq<string>): string
  {
    if parts == [] then [] else parts[0] + Concat(parts[1..])
  }

  lemma {:induction false} ConcatAppend(a: seq<string>, b: seq<string>)
    ensures Concat(a + b) == Concat(a) + Concat(b)
    decreases |a|
  {
    if a == [] {
      assert a + b == b;
    } else {
      assert (a + b)[1..] == a[1..] + b;
      ConcatAppend(a[1..], b);
    }
  }

  predicate IsDigit(c: char) {
    '0' <= c <= '9'
  }

  predicate AllDigits(s: string) {
    forall i | 0 <= i < |s| :: IsDigit(s[i])
  }

  function DigitChar(d: nat): (c: char)
    requires d < 10
  {
    ('0' as int + d) as char
  }

  function DigitValue(c: char): nat
    requires IsDigit(c)
  {
    c as int - '0' as int
  }

  /** `to_string(n)` for a non-negative size: decimal digits, no leading zero. */
  function Decimal(n: nat): (s: string)
    ensures |s| > 0 && AllDigits(s)
    ensures s[0] == '0' ==> n == 0
    decreases n
  {
    if n < 10 then [DigitChar(n)] else Decimal(n / 10) + [DigitChar(n % 10)]
  }

  /** The number a run of decimal digits spells. */
  function DigitsValue(s: string): nat
    requires AllDigits(s)
    decreases |s|
  {
    if s == [] then 0 else 10 * DigitsValue(s[..|s| - 1]) + DigitValue(s[|s| - 1])
  }

  /** Reading back what `Decimal` wrote gives the number that was written. */
  lemma {:induction false} DecimalValue(n: nat)
    ensures DigitsValue(Decimal(n)) == n
    decreases n
  {
    if n >= 10 {
      var s := Decimal(n);
      assert s[..|s| - 1] == Decimal(n / 10);
      DecimalValue(n / 10);
    }
  }

  function DigitRun(s: string): (n: nat)
    ensures n <= |s| && AllDigits(s[..n])
    ensures n == |s| || !IsDigit(s[n])
  {
    if |s| > 0 && IsDigit(s[0]) then 1 + DigitRun(s[1..]) else 0
  }

  lemma {:induction false} DigitRunOf(d: string, rest: string)
    requires AllDigits(d)
    requires rest == [] || !IsDigit(rest[0])
    ensures DigitRun(d + rest) == |d|
    decreases |d|
  {
    if d != [] {
      assert (d + rest)[1..] == d[1..] + rest;
      DigitRunOf(d[1..], rest);
    } else {
      assert d + rest == rest;
    }
  }

  /** One more than the largest `size_t`: sizes are 64-bit unsigned numbers. */
  const SizeLimit: nat := 0x1_0000_0000_0000_0000

  /** What `>> size` stores for a run of digits spelling `n`: `n` itself when it
      fits in a `size_t`, `SIZE_MAX` when it does not. */
  function Saturate(n: nat): (r: nat)
    ensures r < SizeLimit
    ensures n < SizeLimit ==> r == n
  {
    if n < SizeLimit then n else SizeLimit - 1
  }

  /** `stream >> size` into a `size_t`, as `strtoull` reads it: skip whitespace,
      take an optional sign and the run of decimal digits after it; a `-`
      negates modulo 2^64 and a number too large for `size_t` saturates.
      `Some(0)` when no digit follows (the failed extraction stores 0); `None`
      when only whitespace is left, where the extraction stores nothing. */
  function ReadSize(s: string): (r: Option<nat>)
    ensures r.None? <==> AllSpace(s)
    ensures r.Some? ==> r.value < SizeLimit
  {
    var t := SkipSpace(s);
    SkipSpaceAll(s);
    if t == [] then None else Some(SizeWord(t))
  }

  /** The extraction once whitespace is skipped: the sign, then the digits. */
  function SizeWord(t: string): (v: nat)
    requires t != []
    ensures v < SizeLimit
  {
    var digits := if t[0] == '+' || t[0] == '-' then t[1..] else t;
    var n := DigitRun(digits);
    if n == 0 then 0 else Signed(t[0] == '-', DigitsValue(digits[..n]))
  }

  /** A magnitude read into a `size_t`, negated modulo 2^64 after a `-`. */
  function Signed(negative: bool, v: nat): (r: nat)
    ensures r < SizeLimit
  {
    if v >= SizeLimit then SizeLimit - 1
    else if negative then (SizeLimit - v) % SizeLimit
    else v
  }

  /** A number written by `Decimal` after whitespace reads back as itself,
      saturated to `size_t`. */
  lemma ReadSizeOfDecimal(pre: string, n: nat, rest: string)
    requires AllSpace(pre)
    requires rest == [] || !IsDigit(rest[0])
    ensures ReadSize(pre + Decimal(n) + rest) == Some(Saturate(n))
  {
    var d := Decimal(n);
    assert pre + d + rest == pre + (d + rest);
    SkipSpaceOf(pre, d + rest);
    assert IsDigit((d + rest)[0]);
    DigitRunOf(d, rest);
    assert (d + rest)[..|d|] == d;
    DecimalValue(n);
  }

  /** A signed number: `+` changes nothing, `-` negates modulo 2^64, and a
      magnitude too large for `size_t` saturates whatever the sign. */
  lemma ReadSizeOfSigned(pre: string, sign: char, n: nat, rest: string)
    requires AllSpace(pre)
    requires sign == '+' || sign == '-'
    requires rest == [] || !IsDigit(rest[0])
    ensures ReadSize(pre + [sign] + Decimal(n) + rest) ==
      Some(if sign == '+' || n >= SizeLimit then Saturate(n) else (SizeLimit - n) % SizeLimit)
  {
    var t := [sign] + Decimal(n) + rest;
    assert pre + [sign] + Decimal(n) + rest == pre + t;
    assert !IsSpace(sign);
    SkipSpaceOf(pre, t);
    SizeWordOfSigned(sign, n, rest);
  }

  lemma SizeWordOfSigned(sign: char, n: nat, rest: string)
    requires sign == '+' || sign == '-'
    requires rest == [] || !IsDigit(rest[0])
    ensures SizeWord([sign] + Decimal(n) + rest) == Signed(sign == '-', n)
  {
    var d := Decimal(n);
    var t := [sign] + d + rest;
    assert t[1..] == d + rest;
    DigitRunOf(d, rest);
    assert (d + rest)[..|d|] == d;
    DecimalValue(n);
  }

  /** A word with no digit after its optional sign reads as 0, as `strtoull`
      reports when it converts nothing. */
  lemma ReadSizeOfNonDigit(pre: string, t: string)
    requires AllSpace(pre)
    requires t != [] && !IsSpace(t[0])
    requires var sign := t[0] == '+' || t[0] == '-';
      (sign && (|t| == 1 || !IsDigit(t[1]))) || (!sign && !IsDigit(t[0]))
    ensures ReadSize(pre + t) == Some(0)
  {
    SkipSpaceOf(pre, t);
  }

  /** `path(p).filename()`: the text after the last '/', empty when `p` ends in '/'. */
  function BaseName(p: string): (r: string)
    ensures |r| <= |p| && r == p[|p| - |r|..]
    ensures '/' !in r
    ensures |r| < |p| ==> p[|p| - |r| - 1] == '/'
  {
    if p == [] then []
    else if p[|p| - 1] == '/' then []
    else BaseName(p[..|p| - 1]) + [p[|p| - 1]]
  }
}

=== FILE: tree_codec.dfy ===
/** Tree objects: the `"<mode> <name>\0<hash>"` entry format, the two parsers
    `parseTreeData` (ordered list) and `parseTreeDataMap` (name-keyed map),
    `displayTree`, `lstree` and `getTreeData`. */
module TreeCodec {
  import opened Wrappers
  import opened Text
  import opened Hex
  import opened Objects

  const FileMode: string := "100644"
  const DirMode: string := "040000"

  /** Width of the hash field that follows each entry's NUL. */
  const HashWidth: nat := 40

  /** The entry kind, derived from the mode word: `100644` is a blob, any
      other mode a tree. */
  datatype Kind = Blob | Tree

  function KindOf(mode: string): Kind {
    if mode == FileMode then Blob else Tree
  }

  function KindName(k: Kind): string {
    match k
    case Blob => "blob"
    case Tree => "tree"
  }

  /** One entry as the parsers return it (`filemod`, `filename`, `filetype`, `filehash`). */
  datatype TreeEntry = TreeEntry(mode: string, name: string, kind: Kind, hash: string)

  /** `"<mode> <name>\0<hash>"`: one entry as written into a tree payload. */
  function EntryText(e: TreeEntry): string {
    e.mode + " " + e.name + [NUL] + e.hash
  }

  /** A tree payload: the entries' texts concatenated in order. */
  function Serialize(entries: seq<TreeEntry>): string {
    if entries == [] then [] else EntryText(entries[0]) + Serialize(entries[1..])
  }

  /** An entry the payload format can carry: mode and name are single words
      without NUL, the hash is 40 characters, and the kind agrees with the mode. */
  predicate WellFormed(e: TreeEntry) {
    IsToken(e.mode) && IsToken(e.name) && |e.hash| == HashWidth && e.kind == KindOf(e.mode)
  }

  datatype TreeError =
    | NotATree     // the header's first word is not `tree`: the parsers return nothing
    | MissingNul   // no NUL where the loop expects one (the source wraps `npos + 1`)

  /** The header step shared by both parsers: the first NUL ends the header, whose
      first word must be `tree` (the size word is read but not checked). Gives
      the position of the first entry and the text the stream has left unread. */
  function ReadHeader(data: string): (r: Result<(nat, string), TreeError>)
    ensures r.Success? <==> Find(data, NUL, 0).Some? && ReadToken(data[..Find(data, NUL, 0).value]).0 == "tree"
    ensures r.Success? ==> r.value.0 == Find(data, NUL, 0).value + 1
    ensures r.Failure? && Find(data, NUL, 0).Some? ==> r.error == NotATree
  {
    var stop := Find(data, NUL, 0);
    var header := if stop.Some? then data[..stop.value] else data;
    var (objtype, rest1) := ReadToken(header);
    var (objsize, rest2) := ReadToken(rest1);
    if objtype != "tree" then Failure(NotATree)
    else if stop.None? then Failure(MissingNul)
    else Success((stop.value + 1, rest2))
  }

  /** One turn of the parse loop at `pos`: the text up to the next NUL is
      appended to what the reused stream still holds and `>> mode >> name`
      are read from it; the 40 characters after the NUL (fewer at the end of
      the data) are the hash. */
  datatype Step = Step(entry: TreeEntry, next: nat, carry: string)

  /** `>> mode >> name` on the text the stream holds: both words and what is
      left unread. */
  function ReadWords(text: string): (string, string, string) {
    var (mode, rest1) := ReadToken(text);
    var (name, rest2) := ReadToken(rest1);
    (mode, name, rest2)
  }

  lemma ReadWordsOf(mode: string, name: string)
    requires IsToken(mode) && IsToken(name)
    ensures ReadWords(mode + " " + name) == (mode, name, [])
  {
    assert mode + " " + name == [] + mode + (" " + name);
    ReadTokenOf([], mode, " " + name);
    assert " " + name == " " + name + [];
    ReadTokenOf(" ", name, []);
  }

  function ReadEntry(data: string, pos: nat, carry: string): (r: Option<Step>)
    requires pos < |data|
    ensures r.None? <==> forall j | pos <= j < |data| :: data[j] != NUL
    ensures r.Some? ==> r.value.next > pos && r.value.entry.kind == KindOf(r.value.entry.mode)
    ensures r.Some? ==> |r.value.entry.hash| <= HashWidth
  {
    match Find(data, NUL, pos)
    case None => None
    case Some(stop) => Some(EntryBefore(data, pos, stop, carry))
  }

  /** The entry whose words end at the NUL at `stop`; the hash field is cut
      short by the end of the data. */
  function EntryBefore(data: string, pos: nat, stop: nat, carry: string): (st: Step)
    requires pos <= stop < |data|
    ensures st.next > pos && st.entry.kind == KindOf(st.entry.mode) && |st.entry.hash| <= HashWidth
  {
    var words := ReadWords(carry + data[pos..stop]);
    var h := stop + 1;
    var end := if h + HashWidth <= |data| then h + HashWidth else |data|;
    Step(TreeEntry(words.0, words.1, KindOf(words.0), data[h..end]), h + HashWidth, words.2)
  }

  function ParseEntries(data: string, pos: nat, carry: string): (r: Result<seq<TreeEntry>, TreeError>)
    ensures r.Success? ==> forall i | 0 <= i < |r.value| :: r.value[i].kind == KindOf(r.value[i].mode)
    decreases |data| - pos
  {
    if pos >= |data| then Success([])
    else match ReadEntry(data, pos, carry)
      case None => Failure(MissingNul)
      case Some(st) =>
        match ParseEntries(data, st.next, st.carry)
        case Failure(e) => Failure(e)
        case Success(rest) =>
          assert forall i | 1 <= i < |rest| + 1 :: ([st.entry] + rest)[i] == rest[i - 1];
          Success([st.entry] + rest)
  }

  /** `parseTreeData`: the entries of a tree object in payload order. */
  function ParseTree(data: string): (r: Result<seq<TreeEntry>, TreeError>)
    ensures r.Success? ==> forall i | 0 <= i < |r.value| :: r.value[i].kind == KindOf(r.value[i].mode)
  {
    match ReadHeader(data)
    case Failure(e) => Failure(e)
    case Success((pos, carry)) => ParseEntries(data, pos, carry)
  }

  /** Every key names its own entry. */
  predicate KeyedByName(m: map<string, TreeEntry>) {
    forall k | k in m :: m[k].name == k
  }

  function ParseMapEntries(data: string, pos: nat, carry: string, acc: map<string, TreeEntry>)
    : (r: Result<map<string, TreeEntry>, TreeError>)
    requires KeyedByName(acc)
    ensures r.Success? ==> KeyedByName(r.value) && acc.Keys <= r.value.Keys
    decreases |data| - pos
  {
    if pos >= |data| then Success(acc)
    else match ReadEntry(data, pos, carry)
      case None => Failure(MissingNul)
      case Some(st) =>
        var acc' := acc[st.entry.name := st.entry];
        assert KeyedByName(acc') && acc.Keys <= acc'.Keys;
        ParseMapEntries(data, st.next, st.carry, acc')
  }

  /** `parseTreeDataMap`: the same loop, storing each entry under its name. */
  function ParseTreeMap(data: string): (r: Result<map<string, TreeEntry>, TreeError>)
    ensures r.Success? ==> KeyedByName(r.value)
  {
    match ReadHeader(data)
    case Failure(e) => Failure(e)
    case Success((pos, carry)) => ParseMapEntries(data, pos, carry, map[])
  }

  /** Filling a map from a list, a later entry overwriting an earlier one of the same name. */
  function ListToMap(acc: map<string, TreeEntry>, entries: seq<TreeEntry>): map<string, TreeEntry>
    decreases |entries|
  {
    if entries == [] then acc else ListToMap(acc[entries[0].name := entries[0]], entries[1..])
  }

  function Names(entries: seq<TreeEntry>): set<string> {
    set i | 0 <= i < |entries| :: entries[i].name
  }

  /** The map filled from a list holds the list's names (and the starting keys),
      and each name maps to the LAST list entry carrying it. */
  lemma {:induction false} ListToMapLastWins(acc: map<string, TreeEntry>, entries: seq<TreeEntry>)
    ensures ListToMap(acc, entries).Keys == acc.Keys + Names(entries)
    ensures forall i | 0 <= i < |entries| && (forall j | i < j < |entries| :: entries[j].name != entries[i].name) ::
      ListToMap(acc, entries)[entries[i].name] == entries[i]
    ensures forall k | k in acc && k !in Names(entries) :: ListToMap(acc, entries)[k] == acc[k]
    decreases |entries|
  {
    if entries != [] {
      var e := entries[0];
      var tail := entries[1..];
      var acc' := acc[e.name := e];
      ListToMapLastWins(acc', tail);
      assert Names(entries) == {e.name} + Names(tail) by {
        forall k | k in Names(entries) ensures k in {e.name} + Names(tail) {
          var i :| 0 <= i < |entries| && entries[i].name == k;
          if i > 0 { assert tail[i - 1].name == k; }
        }
        forall k | k in Names(tail) ensures k in Names(entries) {
          var i :| 0 <= i < |tail| && tail[i].name == k;
          assert entries[i + 1].name == k;
        }
      }
      forall i | 0 <= i < |entries| && (forall j | i < j < |entries| :: entries[j].name != entries[i].name)
        ensures ListToMap(acc, entries)[entries[i].name] == entries[i]
      {
        if i == 0 {
          forall t | 0 <= t < |tail| ensures tail[t].name != e.name {
            assert tail[t] == entries[t + 1];
          }
        } else {
          assert entries[i] == tail[i - 1];
          forall j | i - 1 < j < |tail| ensures tail[j].name != tail[i - 1].name {
            assert tail[j] == entries[j + 1];
          }
        }
      }
    }
  }

  lemma {:induction false} SerializeAppend(a: seq<TreeEntry>, b: seq<TreeEntry>)
    ensures Serialize(a + b) == Serialize(a) + Serialize(b)
    decreases |a|
  {
    if a == [] {
      assert a + b == b;
    } else {
      assert (a + b)[1..] == a[1..] + b;
      SerializeAppend(a[1..], b);
    }
  }

  /** Both parsers run the same loop: the map parser's answer is the list
      parser's answer poured into a map. */
  lemma {:induction false} MapEntriesFromList(data: string, pos: nat, carry: string, acc: map<string, TreeEntry>)
    requires KeyedByName(acc)
    ensures ParseMapEntries(data, pos, carry, acc).Success? <==> ParseEntries(data, pos, carry).Success?
    ensures ParseEntries(data, pos, carry).Success? ==>
      ParseMapEntries(data, pos, carry, acc).value == ListToMap(acc, ParseEntries(data, pos, carry).value)
    decreases |data| - pos
  {
    if pos < |data| {
      match ReadEntry(data, pos, carry)
      case None =>
      case Some(st) =>
        var acc' := acc[st.entry.name := st.entry];
        assert KeyedByName(acc');
        MapEntriesFromList(data, st.next, st.carry, acc');
        assert ParseMapEntries(data, pos, carry, acc) == ParseMapEntries(data, st.next, st.carry, acc');
        if ParseEntries(data, st.next, st.carry).Success? {
          var rest := ParseEntries(data, st.next, st.carry).value;
          assert ParseEntries(data, pos, carry) == Success([st.entry] + rest);
          assert ([st.entry] + rest)[1..] == rest;
          assert ListToMap(acc, [st.entry] + rest) == ListToMap(acc', rest);
        }
    }
  }

  /** `parseTreeDataMap` succeeds exactly when `parseTreeData` does; its keys are
      exactly the list's names, and each name maps to the last list entry with
      that name. */
  lemma MapViewOfList(data: string)
    ensures ParseTreeMap(data).Success? <==> ParseTree(data).Success?
    ensures ParseTree(data).Success? ==>
      var entries := ParseTree(data).value;
      var m := ParseTreeMap(data).value;
      && m.Keys == Names(entries)
      && forall i | 0 <= i < |entries| && (forall j | i < j < |entries| :: entries[j].name != entries[i].name) ::
           m[entries[i].name] == entries[i]
  {
    match ReadHeader(data)
    case Failure(e) =>
    case Success((pos, carry)) =>
      MapEntriesFromList(data, pos, carry, map[]);
      if ParseTree(data).Success? {
        ListToMapLastWins(map[], ParseTree(data).value);
      }
  }

  /** The two mode words are single words, and they select the two kinds. */
  lemma ModeWords()
    ensures IsToken(FileMode) && IsToken(DirMode)
    ensures KindOf(FileMode) == Blob && KindOf(DirMode) == Tree
  {
    assert forall i | 0 <= i < 6 :: IsDigit(FileMode[i]) && IsDigit(DirMode[i]);
    assert DirMode[0] != FileMode[0];
  }

  /** Where a well-formed entry's text sits inside the data around it. */
  lemma EntryTextAt(prefix: string, e: TreeEntry, suffix: string)
    requires WellFormed(e)
    ensures var data := prefix + EntryText(e) + suffix;
      var stop := |prefix| + |e.mode| + 1 + |e.name|;
      && stop + 1 + HashWidth <= |data|
      && Find(data, NUL, |prefix|) == Some(stop)
      && data[|prefix|..stop] == e.mode + " " + e.name
      && data[stop + 1..stop + 1 + HashWidth] == e.hash
  {
    var data := prefix + EntryText(e) + suffix;
    var pos := |prefix|;
    var chunk := e.mode + " " + e.name;
    var stop := pos + |chunk|;
    assert data == prefix + chunk + [NUL] + e.hash + suffix;
    assert data[pos..stop] == chunk;
    assert data[stop] == NUL;
    forall j | pos <= j < stop ensures data[j] != NUL {
      assert data[j] == chunk[j - pos];
      if j - pos < |e.mode| {
        assert chunk[j - pos] == e.mode[j - pos];
        assert e.mode[j - pos] in e.mode;
      } else if j - pos > |e.mode| {
        assert chunk[j - pos] == e.name[j - pos - |e.mode| - 1];
        assert e.name[j - pos - |e.mode| - 1] in e.name;
      }
    }
    FindAfter(data, NUL, pos, stop);
    assert data[stop + 1..stop + 1 + HashWidth] == e.hash;
  }

  /** Reading one well-formed entry with an empty stream consumes exactly its text. */
  lemma ReadEntryOf(prefix: string, e: TreeEntry, suffix: string)
    requires WellFormed(e)
    ensures |prefix| < |prefix + EntryText(e) + suffix|
    ensures ReadEntry(prefix + EntryText(e) + suffix, |prefix|, "")
         == Some(Step(e, |prefix| + |EntryText(e)|, ""))
  {
    var data := prefix + EntryText(e) + suffix;
    var stop := |prefix| + |e.mode| + 1 + |e.name|;
    EntryTextAt(prefix, e, suffix);
    ReadWordsOf(e.mode, e.name);
    ReadEntryAt(data, |prefix|, stop, e.mode, e.name, e.hash);
    StepOf(prefix, e, stop);
  }

  lemma StepOf(prefix: string, e: TreeEntry, stop: nat)
    requires WellFormed(e) && stop == |prefix| + |e.mode| + 1 + |e.name|
    ensures Step(TreeEntry(e.mode, e.name, KindOf(e.mode), e.hash), stop + 1 + HashWidth, "")
         == Step(e, |prefix| + |EntryText(e)|, "")
  {
  }

  /** One parse turn from an empty stream, given where the NUL is and what the
      words before it are. */
  lemma ReadEntryAt(data: string, pos: nat, stop: nat, mode: string, name: string, hash: string)
    requires pos < |data| && Find(data, NUL, pos) == Some(stop)
    requires ReadWords(data[pos..stop]) == (mode, name, [])
    requires stop + 1 + HashWidth <= |data| && data[stop + 1..stop + 1 + HashWidth] == hash
    ensures ReadEntry(data, pos, "") == Some(Step(TreeEntry(mode, name, KindOf(mode), hash), stop + 1 + HashWidth, ""))
  {
    EntryBeforeOf(data, pos, stop, mode, name, hash);
  }

  lemma EntryBeforeOf(data: string, pos: nat, stop: nat, mode: string, name: string, hash: string)
    requires pos <= stop < |data|
    requires ReadWords(data[pos..stop]) == (mode, name, [])
    requires stop + 1 + HashWidth <= |data| && data[stop + 1..stop + 1 + HashWidth] == hash
    ensures EntryBefore(data, pos, stop, "") == Step(TreeEntry(mode, name, KindOf(mode), hash), stop + 1 + HashWidth, "")
  {
    assert "" + data[pos..stop] == data[pos..stop];
  }

  /** Parsing the serialized entries that follow `prefix` gives them back. */
  lemma {:induction false} ParseEntriesOf(prefix: string, entries: seq<TreeEntry>)
    requires forall i | 0 <= i < |entries| :: WellFormed(entries[i])
    ensures ParseEntries(prefix + Serialize(entries), |prefix|, "") == Success(entries)
    decreases |entries|
  {
    if entries == [] {
      assert prefix + Serialize(entries) == prefix;
    } else {
      var e := entries[0];
      var tail := entries[1..];
      var rest := Serialize(tail);
      var prefix' := prefix + EntryText(e);
      SerializeCons(prefix, entries);
      assert forall i | 0 <= i < |tail| :: WellFormed(tail[i]);
      ParseEntriesOf(prefix', tail);
      ParseEntryThen(prefix, e, rest, tail);
      HeadTail(entries);
    }
  }

  /** A well-formed entry read in front of a parse that succeeds. */
  lemma ParseEntryThen(prefix: string, e: TreeEntry, rest: string, tail: seq<TreeEntry>)
    requires WellFormed(e)
    requires ParseEntries(prefix + EntryText(e) + rest, |prefix + EntryText(e)|, "") == Success(tail)
    ensures ParseEntries(prefix + EntryText(e) + rest, |prefix|, "") == Success([e] + tail)
  {
    ReadEntryOf(prefix, e, rest);
    ParseEntriesStep(prefix + EntryText(e) + rest, |prefix|, "", Step(e, |prefix + EntryText(e)|, ""), tail);
  }

  lemma HeadTail(s: seq<TreeEntry>)
    requires s != []
    ensures [s[0]] + s[1..] == s
  {
  }

  lemma SerializeCons(prefix: string, entries: seq<TreeEntry>)
    requires entries != []
    ensures prefix + Serialize(entries) == prefix + EntryText(entries[0]) + Serialize(entries[1..])
  {
  }

  /** One turn of the parse loop followed by a successful rest of the parse. */
  lemma ParseEntriesStep(data: string, pos: nat, carry: string, st: Step, rest: seq<TreeEntry>)
    requires pos < |data| && ReadEntry(data, pos, carry) == Some(st)
    requires ParseEntries(data, st.next, st.carry) == Success(rest)
    ensures ParseEntries(data, pos, carry) == Success([st.entry] + rest)
  {
  }

  /** The header of a framed tree is accepted and leaves nothing unread. */
  lemma ReadHeaderOf(payload: string)
    ensures ReadHeader(Frame("tree", payload)) == Success((|Frame("tree", payload)| - |payload|, ""))
  {
    var d := Decimal(|payload|);
    var f := Frame("tree", payload);
    var i := 5 + |d|;
    KindWords();
    assert f == "tree" + " " + d + [NUL] + payload;
    assert f[..i] == "tree" + " " + d;
    assert NUL !in d by {
      assert forall j | 0 <= j < |d| :: IsDigit(d[j]);
    }
    FindAfter(f, NUL, 0, i);
    assert NoSpace(d) by {
      assert forall j | 0 <= j < |d| :: IsDigit(d[j]);
    }
    assert "tree" + " " + d == [] + "tree" + (" " + d);
    ReadTokenOf([], "tree", " " + d);
    assert " " + d == " " + d + [];
    ReadTokenOf(" ", d, []);
  }

  /** Tree round trip: parsing `"tree <size>\0"` followed by serialized
      well-formed entries gives back the same entries in the same order. */
  lemma TreeRoundTrip(entries: seq<TreeEntry>)
    requires forall i | 0 <= i < |entries| :: WellFormed(entries[i])
    ensures ParseTree(Frame("tree", Serialize(entries))) == Success(entries)
  {
    var payload := Serialize(entries);
    var f := Frame("tree", payload);
    ReadHeaderOf(payload);
    var prefix := f[..|f| - |payload|];
    assert f == prefix + payload;
    ParseEntriesOf(prefix, entries);
  }

  /** One line of `displayTree` (without its newline): with `--name-only` the
      name, with a trailing `/` for a tree; otherwise mode, kind, hash and name
      separated by two spaces. */
  function DisplayLine(e: TreeEntry, nameOnly: bool): string {
    if nameOnly then e.name + (if e.kind == Tree then "/" else "")
    else e.mode + "  " + KindName(e.kind) + "  " + e.hash + "  " + e.name
  }

  function DisplayLines(entries: seq<TreeEntry>, nameOnly: bool): (lines: seq<string>)
    ensures |lines| == |entries|
  {
    seq(|entries|, i requires 0 <= i < |entries| => DisplayLine(entries[i], nameOnly))
  }

  /** `displayTree`: each entry's line followed by a newline, in list order. */
  function DisplayTree(entries: seq<TreeEntry>, nameOnly: bool): string {
    JoinLines(DisplayLines(entries, nameOnly))
  }

  /** No field of the entry holds a newline. */
  predicate SingleLine(e: TreeEntry) {
    '\n' !in e.mode && '\n' !in e.name && '\n' !in e.hash
  }

  lemma DisplayLineSingle(e: TreeEntry, nameOnly: bool)
    requires SingleLine(e)
    ensures '\n' !in DisplayLine(e, nameOnly)
  {
    var k := KindName(e.kind);
    assert '\n' !in k by {
      assert forall i | 0 <= i < 4 :: k[i] != '\n';
    }
    assert '\n' !in "  " && '\n' !in "/";
    if nameOnly {
      var suffix := if e.kind == Tree then "/" else "";
      assert '\n' !in e.name + suffix;
    } else {
      var line := e.mode + "  " + k + "  " + e.hash + "  " + e.name;
      forall i | 0 <= i < |line| ensures line[i] != '\n' {
        assert line[i] in e.mode || line[i] in "  " || line[i] in k || line[i] in e.hash || line[i] in e.name;
      }
    }
  }

  /** Reading `displayTree`'s output with `getline` gives one line per entry,
      in list order, each that entry's display line. */
  lemma DisplayOneLinePerEntry(entries: seq<TreeEntry>, nameOnly: bool)
    requires forall i | 0 <= i < |entries| :: SingleLine(entries[i])
    ensures |Lines(DisplayTree(entries, nameOnly))| == |entries|
    ensures forall i | 0 <= i < |entries| :: Lines(DisplayTree(entries, nameOnly))[i] == DisplayLine(entries[i], nameOnly)
  {
    var lines := DisplayLines(entries, nameOnly);
    forall i | 0 <= i < |lines| ensures '\n' !in lines[i] {
      DisplayLineSingle(entries[i], nameOnly);
    }
    LinesOfJoined(lines);
  }

  /** Why `lstree` prints nothing and fails. */
  datatype ListError =
    | Unreadable(error: ObjectError)   // name too short, or object file missing
    | Undecodable                      // inflating the object gave no data
    | Unparsable(tree: TreeError)      // not a tree, or no NUL where one is needed
    | NoEntries                        // the tree parsed to no entries

  /** `lstree`: reads the object, parses it as a tree and displays it; an
      empty listing is a failure, exactly like a non-tree object. */
  function LsTree(store: Store, sha: string, nameOnly: bool): (r: Result<string, ListError>)
    ensures r.Success? <==>
      && ObjectPath(sha).Some? && ObjectPath(sha).value in store
      && store[ObjectPath(sha).value] != []
      && ParseTree(store[ObjectPath(sha).value]).Success?
      && ParseTree(store[ObjectPath(sha).value]).value != []
  {
    match ObjectPath(sha)
    case None => Failure(Unreadable(ShortName(sha)))
    case Some(p) =>
      if p !in store then Failure(Unreadable(NotFound(p)))
      else if store[p] == [] then Failure(Undecodable)
      else match ParseTree(store[p])
        case Failure(e) => Failure(Unparsable(e))
        case Success(entries) =>
          if entries == [] then Failure(NoEntries) else Success(DisplayTree(entries, nameOnly))
  }

  /** Listing a tree that `writeObject` stored displays exactly its entries. */
  lemma LsTreeOfStoredTree(store: Store, entries: seq<TreeEntry>, digest: Hasher, nameOnly: bool)
    requires entries != []
    requires forall i | 0 <= i < |entries| :: WellFormed(entries[i])
    ensures LsTree(WriteObject(store, Serialize(entries), digest), ToHex(digest(Serialize(entries))), nameOnly)
         == Success(DisplayTree(entries, nameOnly))
  {
    var payload := Serialize(entries);
    var s := WriteObject(store, payload, digest);
    var sha := ToHex(digest(payload));
    var p := ObjectPath(sha).value;
    assert p in s && s[p] == Frame("tree", payload);
    TreeRoundTrip(entries);
    assert ParseTree(s[p]) == Success(entries);
    assert |s[p]| > 0;
  }

  /** `getTreeData`: the name-keyed entries of a stored tree. A missing object,
      an empty inflation and a non-tree object all give the empty map. `None`
      where the source crashes (`substr(2)` on a short name) or where a missing
      NUL wraps its position to 0 and then 40: from there it loops forever on
      data longer than 40 characters and otherwise adds one garbage entry. */
  function GetTreeData(store: Store, sha: string): (r: Option<map<string, TreeEntry>>)
    ensures r.Some? ==> KeyedByName(r.value)
    ensures ObjectPath(sha).Some? && ObjectPath(sha).value !in store ==> r == Some(map[])
    ensures ObjectPath(sha).Some? && ObjectPath(sha).value in store &&
      (store[ObjectPath(sha).value] == [] || ParseTreeMap(store[ObjectPath(sha).value]) == Failure(NotATree))
      ==> r == Some(map[])
    ensures r.None? <==> (ObjectPath(sha).None? ||
      (ObjectPath(sha).value in store && store[ObjectPath(sha).value] != [] &&
       ParseTreeMap(store[ObjectPath(sha).value]) == Failure(MissingNul)))
  {
    match ObjectPath(sha)
    case None => None
    case Some(p) =>
      if p !in store || store[p] == [] then Some(map[])
      else match ParseTreeMap(store[p])
        case Failure(NotATree) => Some(map[])
        case Failure(MissingNul) => None
        case Success(m) => Some(m)
  }

  /** An object framed under any other single word is not a tree: both parsers
      reject it. */
  lemma NonTreeRejected(kind: string, payload: string)
    requires IsToken(kind) && kind != "tree"
    ensures ParseTree(Frame(kind, payload)) == Failure(NotATree)
    ensures ParseTreeMap(Frame(kind, payload)) == Failure(NotATree)
  {
    var d := Decimal(|payload|);
    var f := Frame(kind, payload);
    var i := |kind| + 1 + |d|;
    assert f[..i] == kind + " " + d;
    assert NUL !in d by {
      assert forall j | 0 <= j < |d| :: IsDigit(d[j]);
    }
    FindAfter(f, NUL, 0, i);
    assert kind + " " + d == [] + kind + (" " + d);
    ReadTokenOf([], kind, " " + d);
    assert ReadHeader(f) == Failure(NotATree);
  }

  /** A blob stored by `hashObject` read as a tree: `getTreeData` gives the
      empty map and `lstree` fails as on a non-tree object. */
  lemma BlobIsNotATree(store: Store, content: string, digest: Hasher, nameOnly: bool)
    ensures var (sha, s) := HashObject(store, content, true, digest);
      && GetTreeData(s, sha) == Some(map[])
      && LsTree(s, sha, nameOnly) == Failure(Unparsable(NotATree))
  {
    var (sha, s) := HashObject(store, content, true, digest);
    var p := ObjectPath(sha).value;
    KindWords();
    assert "blob"[0] != "tree"[0];
    NonTreeRejected("blob", content);
    assert s[p] == Frame("blob", content) && |s[p]| > 0;
  }

  /** Reading back a tree that `writeObject` stored gives its entries keyed by
      name, the last entry of each name winning. */
  lemma GetTreeDataOfStoredTree(store: Store, entries: seq<TreeEntry>, digest: Hasher)
    requires forall i | 0 <= i < |entries| :: WellFormed(entries[i])
    ensures GetTreeData(WriteObject(store, Serialize(entries), digest), ToHex(digest(Serialize(entries))))
         == Some(ListToMap(map[], entries))
  {
    var payload := Serialize(entries);
    var s := WriteObject(store, payload, digest);
    var sha := ToHex(digest(payload));
    var p := ObjectPath(sha).value;
    var f := Frame("tree", payload);
    assert p in s && s[p] == f;
    assert |f| > 0;
    TreeRoundTrip(entries);
    ReadHeaderOf(payload);
    var pos := |f| - |payload|;
    assert ReadHeader(f) == Success((pos, ""));
    assert ParseEntries(f, pos, "") == Success(entries);
    MapEntriesFromList(f, pos, "", map[]);
    assert ParseTreeMap(f) == Success(ListToMap(map[], entries));
    assert ObjectPath(sha) == Some(p);
    assert s[p] != [];
  }
}

=== FILE: work_tree.dfy ===
/** `writeTree`: a recursive fold over a directory. Regular files become
    `100644` entries, sub-directories (other than `.mygit` and `.git`) become
    `040000` entries naming their own tree object, and the concatenated
    entries are stored as a tree object named by the digest of the bare payload. */
module WorkTree {
  import opened Wrappers
  import opened Text
  import opened Hex
  import opened Objects
  import opened TreeCodec

  /** One directory entry as `directory_iterator` yields it; a directory's
      children are listed in iteration order. */
  datatype Node =
    | File(name: string, content: string)
    | Dir(name: string, children: seq<Node>)
    | Other(name: string)   // neither a regular file nor a directory

  /** The repository's own metadata directories, never listed in a tree. */
  predicate IsMetaDir(name: string) {
    name == ".mygit" || name == ".git"
  }

  /** The tree listing a directory denotes, written independently of the
      store: one entry per regular file and per non-metadata sub-directory,
      in iteration order. */
  function Listing(children: seq<Node>, digest: Hasher): seq<TreeEntry>
    decreases children, 1
  {
    if children == [] then [] else Listed(children, digest) + Listing(children[1..], digest)
  }

  /** The entry the first child contributes, if any. */
  function Listed(children: seq<Node>, digest: Hasher): seq<TreeEntry>
    requires children != []
    decreases children, 0
  {
    match children[0]
    case File(name, content) => [TreeEntry(FileMode, name, Blob, ContentName(content, digest))]
    case Dir(name, sub) =>
      if IsMetaDir(name) then [] else [TreeEntry(DirMode, name, Tree, TreeName(sub, digest))]
    case Other(_) => []
  }

  /** The name of a directory's tree: the digest of its listing's payload. */
  function TreeName(children: seq<Node>, digest: Hasher): string
    decreases children, 2
  {
    ToHex(digest(Serialize(Listing(children, digest))))
  }

  /** Every listed child's name is a single word without NUL. */
  predicate NamesOk(children: seq<Node>) {
    forall i | 0 <= i < |children| :: !children[i].Other? ==> IsToken(children[i].name)
  }

  datatype Collected = Collected(entries: seq<string>, store: Store)

  datatype Written = Written(sha: string, store: Store)

  /** The loop over `directory_iterator`: the entry texts pushed, in order, and
      the objects written on the way (each file's framed blob by `hashObject`,
      each sub-directory's trees by the recursive `writeTree`). A file's entry
      names the digest of its bare content (`writeBlob`), not the name its
      blob is stored under. */
  function CollectEntries(children: seq<Node>, store: Store, digest: Hasher): (r: Collected)
    ensures Concat(r.entries) == Serialize(Listing(children, digest))
    ensures store.Keys <= r.store.Keys
    decreases children, 1
  {
    if children == [] then Collected([], store)
    else
      var first := CollectFirst(children, store, digest);
      var rest := CollectEntries(children[1..], first.store, digest);
      ConcatAppend(first.entries, rest.entries);
      SerializeAppend(Listed(children, digest), Listing(children[1..], digest));
      Collected(first.entries + rest.entries, rest.store)
  }

  /** One turn of that loop, for the first child. */
  function CollectFirst(children: seq<Node>, store: Store, digest: Hasher): (r: Collected)
    requires children != []
    ensures Concat(r.entries) == Serialize(Listed(children, digest))
    ensures store.Keys <= r.store.Keys
    decreases children, 0
  {
    match children[0]
    case File(name, content) =>
      var text := FileMode + " " + name + [NUL] + ContentName(content, digest);
      assert Concat([text]) == text + Concat([]);
      assert Serialize([TreeEntry(FileMode, name, Blob, ContentName(content, digest))]) == text + Serialize([]);
      Collected([text], HashObject(store, content, true, digest).1)
    case Dir(name, sub) =>
      if IsMetaDir(name) then Collected([], store)
      else
        var w := WriteTree(sub, store, digest);
        var text := DirMode + " " + name + [NUL] + w.sha;
        assert Concat([text]) == text + Concat([]);
        assert Serialize([TreeEntry(DirMode, name, Tree, w.sha)]) == text + Serialize([]);
        Collected([text], w.store)
    case Other(_) => Collected([], store)
  }

  /** A regular file's tree entry names the digest of its bare content, while
      the blob stored for it lives under the digest of its `blob` frame. The
      entry points at that blob exactly when the digest gives both texts the
      same value. */
  lemma FileEntryNamesContent(children: seq<Node>, store: Store, digest: Hasher)
    requires children != [] && children[0].File?
    ensures var content := children[0].content;
      var r := CollectFirst(children, store, digest);
      var entrySha := ContentName(content, digest);
      var blobSha := HashObject(store, content, true, digest).0;
      && r.entries == [FileMode + " " + children[0].name + [NUL] + entrySha]
      && ObjectPath(blobSha).value in r.store
      && r.store[ObjectPath(blobSha).value] == Frame("blob", content)
      && (ObjectPath(entrySha) == ObjectPath(blobSha) <==> digest(content) == digest(Frame("blob", content)))
  {
    var content := children[0].content;
    var entrySha := ContentName(content, digest);
    var blobSha := HashObject(store, content, true, digest).0;
    NameHasLocation(digest(content));
    if ObjectPath(entrySha) == ObjectPath(blobSha) {
      ObjectPathInjective(entrySha, blobSha);
      ToHexInjective(digest(content), digest(Frame("blob", content)));
    }
  }

  /** `writeTree`: returns the digest of the bare payload, which is also the
      name `writeObject` stores the framed payload under. */
  function WriteTree(children: seq<Node>, store: Store, digest: Hasher): (r: Written)
    ensures r.sha == TreeName(children, digest)
    ensures ObjectPath(r.sha).Some? && ObjectPath(r.sha).value in r.store
    ensures r.store[ObjectPath(r.sha).value] == Frame("tree", Serialize(Listing(children, digest)))
    ensures store.Keys <= r.store.Keys
    decreases children, 2
  {
    var c := CollectEntries(children, store, digest);
    var data := Concat(c.entries);
    Written(ToHex(digest(data)), WriteObject(c.store, data, digest))
  }

  /** Every entry of a listing can be carried by the payload format. */
  lemma {:induction false} ListingWellFormed(children: seq<Node>, digest: Hasher)
    requires NamesOk(children)
    ensures forall i | 0 <= i < |Listing(children, digest)| :: WellFormed(Listing(children, digest)[i])
    decreases |children|
  {
    if children != [] {
      ModeWords();
      var first := Listed(children, digest);
      assert Listing(children, digest) == first + Listing(children[1..], digest);
      assert NamesOk(children[1..]) by {
        forall i | 0 <= i < |children[1..]| ensures !children[1..][i].Other? ==> IsToken(children[1..][i].name) {
          assert children[1..][i] == children[i + 1];
        }
      }
      ListingWellFormed(children[1..], digest);
      ListedWellFormed(children, digest);
      var rest := Listing(children[1..], digest);
      assert forall i | |first| <= i < |first| + |rest| :: (first + rest)[i] == rest[i - |first|];
    }
  }

  /** The entry the first child contributes, if any, is well-formed. */
  lemma ListedWellFormed(children: seq<Node>, digest: Hasher)
    requires children != [] && NamesOk(children)
    ensures forall i | 0 <= i < |Listed(children, digest)| :: WellFormed(Listed(children, digest)[i])
  {
    ModeWords();
    assert !children[0].Other? ==> IsToken(children[0].name);
    match children[0]
    case File(name, content) =>
      assert |ContentName(content, digest)| == HashWidth;
    case Dir(name, sub) =>
      assert |TreeName(sub, digest)| == HashWidth;
    case Other(_) =>
  }

  /** The tree object `writeTree` leaves under its returned name parses back to
      the directory's listing: a `100644` entry with the bare-content digest for
      each regular file and a `040000` entry with the sub-tree's name for each
      sub-directory other than `.mygit` and `.git`, in iteration order. */
  lemma WriteTreeReadsBack(children: seq<Node>, store: Store, digest: Hasher)
    requires NamesOk(children)
    ensures var r := WriteTree(children, store, digest);
      ParseTree(r.store[ObjectPath(r.sha).value]) == Success(Listing(children, digest))
  {
    ListingWellFormed(children, digest);
    TreeRoundTrip(Listing(children, digest));
  }
}

=== FILE: wrappers.dfy ===
/** Failure-carrying result types shared by every module of the object store model. */
module Wrappers {

  /** A value that may be absent (a C++ `npos`, a missing file, a crash path). */
  datatype Option<+T> = None | Some(value: T) {

    /** The wrapped value, or `default` when there is none. */
    function GetOr(default: T): T {
      match this
      case Some(v) => v
      case None => default
    }
  }

  /** Either a computed value or the error that stopped the computation. */
  datatype Result<+R, +E> = Success(value: R) | Failure(error: E)
}
